=== FILE: README.md ===
# clever-repartee roster diff, modelled in Dafny

clever-repartee is a command-line tool for the Clever rostering API. Its
`diff` command takes a district's Clever id and gets a bearer token for that
district twice: once with the MAP Accelerator application's credentials and
once with the MAP Growth application's. With each token it fetches the
district's roster: districts, schools, students, teachers, district admins,
school admins and sections. It is meant to report the students, teachers
and schools the accelerator roster has and the growth roster lacks. As
written, its comparisons report none of them, or panic (see "Findings").

The model covers four parts of the program:

- **`CleverClient`** (`cleverclient.dfy`): the fetches of
  `pkg/rostering/cleverclient.go`.
  - The one-shot districts fetch.
  - The cursor-paginated loop that the source repeats six times. It is
    written once, generic in the record type. A `Kind` fixes the endpoint
    path and which nil checks that copy makes.
  - Every nil pointer the source dereferences is an `Option`. A nil
    dereference is a `Panic` outcome.
  - A server that always sends a "next" link would make the source loop
    forever, so the model stops after `fuel` requests with `OutOfFuel`.
  - `FetchLoop` is the loop as the source writes it, with mutable
    variables. It is proved to send the same requests and end the same way
    as the functional `Fetch`.
- **`Query`** (`query.dfy`): `ParseLinkStartingAfter` and the parts of
  Go's `net/url` it uses.
  - The query component of a URI (section 3.4 of RFC 3986).
  - The `&`-separated pairs of `url.ParseQuery`, as in Go 1.17 and later: a
    piece containing `;` is skipped, and so is a piece whose key or value
    does not unescape.
  - Percent-decoding (section 2.1 of RFC 3986, with `+` read as a space).
- **`Token`** (`token.dfy`): `GetCleverToken` of `pkg/rostering/token.go`.
  - Credential selection and the credential check.
  - The Basic `Authorization` header (section 2 of RFC 7617).
  - The status check and taking the first access token.
- **`Commands`** (`commands.dfy`) and **`Rosters`** (`rosters.dfy`,
  `missing.dfy`, `entities.dfy`): the front end and the roster logic.
  - From `cmd/command.go`: the dispatch of `Run` and `getFlags`.
  - From `cmd/roster.go`: `GetRoster`, the district-name choice, the three
    `findMissing*` comparisons and `Diff` up to the report.

`Wrappers`, `Seqs` and `Strings` hold the shared `Option`/`Result` types
and generic sequence and string facts.

The environment is passed in as parameters:

- The process environment is a map.
- The token endpoint and the API endpoints are functions from request to
  reply. The API is a function from bearer token to the seven endpoint
  servers.
- The library calls are parameters:
  - `url.Parse` acceptance (`parses`);
  - `http.NewRequest` acceptance of the token URL (`urlOk`);
  - base64 encoding (`base64`);
  - the `flag` package (`parseFlags`).
- JSON bodies arrive already decoded. A body is malformed or an envelope.
- Go strings are byte strings. A `char` stands for one byte.

The three `findMissing*` comparisons follow the code. They range over the
accelerator collection's indices and read the growth collection's records,
so every id they test is one the growth side has. `Rosters.Diff` is the
program as written: a report it returns lists nothing.
`Rosters.DiffIntended` is the same diff with the corrected comparison,
`Missing.FindMissing`, which lists the accelerator ids the growth side
lacks. See "Findings".

## Model

| member | source | states |
|---|---|---|
| CleverClient.IsHTTPSuccess | pkg/rostering/cleverclient.go:420-422 | a status counts as success exactly when it is non-negative and its hundreds digit is 2 (the 2xx class) |
| CleverClient.Unwrap | pkg/rostering/cleverclient.go:129-135 | a page's records unwrap exactly when no wrapped record is nil, and then they come out one for one, in order |
| CleverClient.ScanLinksLastNext | pkg/rostering/cleverclient.go:136-146 | the links scan succeeds exactly when every link has a `rel` and every "next" link has a `uri`; the cursor then comes from the last "next" link, and is unchanged when there is none |
| CleverClient.FetchDistricts | pkg/rostering/cleverclient.go:56-95 | one request with no parameters; succeeds exactly on a 2xx decoded reply whose records are all set; a nil `data` array gives no districts, otherwise the records in order; a non-2xx status gives an error naming `/districts` and the status, and a status error arises only so; a 2xx decoded reply with a nil record panics, and only it does; a transport error or an undecodable 2xx body of the one reply is returned as that same error, and every other error comes from such a reply; no error returns records |
| CleverClient.PageStepItems | pkg/rostering/cleverclient.go:129-135 | a page that lets the loop go on, or end with success, appends exactly its own records to those collected before |
| CleverClient.PageStepLinks | pkg/rostering/cleverclient.go:136-146 | the loop goes on only after a readable 2xx page that has a "next" link, with that page's last "next" cursor; it ends with success only on a readable page without one |
| CleverClient.PageStepReadable | pkg/rostering/cleverclient.go:113-146 | on a readable 2xx page the loop appends the page's records, then goes on exactly when the page has a "next" link |
| CleverClient.PageStepErrors | pkg/rostering/cleverclient.go:109-128 | a non-2xx status on a request with a cursor gives an error with the path, the status and that cursor, keeping what was collected, and a status error arises in no other way; it panics on the nil cursor of a first request; transport and decode errors keep nothing; a nil `data` or `links` array panics only in copies without the nil check |
| CleverClient.FetchLoop | pkg/rostering/cleverclient.go:97-148 | the loop written with mutable request parameters and accumulator sends the same requests and ends with the same outcome as `Fetch` |
| CleverClient.FetchRequests | pkg/rostering/cleverclient.go:102-144 | the first request carries the limit and no cursor; every request carries the limit; every later request carries a cursor |
| CleverClient.FetchOkItems | pkg/rostering/cleverclient.go:103-148 | a successful fetch returns the records of every page it requested, concatenated in request order |
| CleverClient.FetchStatusErr | pkg/rostering/cleverclient.go:113-118 | a non-2xx reply to a later request ends the fetch with an error naming the kind's path, that status and that request's cursor, carrying the records of the pages before it; conversely a status error comes only from such a reply to the last request |
| CleverClient.FetchStatusPartial | pkg/rostering/cleverclient.go:113-118 | a status error is returned with exactly the records of the pages before the failing one |
| CleverClient.FetchOtherErr | pkg/rostering/cleverclient.go:105-128 | when the last reply is a transport error, or a 2xx reply whose body does not decode, the fetch fails with exactly that error and no records; conversely every error other than a status error is that of the last reply |
| CleverClient.FetchCursorChain | pkg/rostering/cleverclient.go:139-145 | each request after the first carries the cursor of the previous page's last "next" link; a successful fetch ends on a page without one |
| CleverClient.FetchServedPages | pkg/rostering/cleverclient.go:103-148 | against a server that answers a chain of 2xx pages, with enough fuel, the fetch returns every page's records in page order, a page with nil `data` adding none, one request per page |
| CleverClient.FetchNilCursor | pkg/rostering/cleverclient.go:113-118 | the fetch panics on the nil `StartingAfter` exactly when the first reply is a non-2xx status |
| CleverClient.FetchNilArrays | pkg/rostering/cleverclient.go:185-190 | a panic on a nil `data` array happens only for district admins and teachers (teachers dereference it at line 289); one on a nil `links` array only for district admins |
| CleverClient.FirstPageWithoutData | pkg/rostering/cleverclient.go:289-295 | a first 2xx page with no `data` array makes district admins and teachers panic; the other kinds read it as an empty page |
| Query.ParseLinkStartingAfterFirst | pkg/rostering/cleverclient.go:43-54 | for a URI that parses, the result is the value of the first well-formed `starting_after` pair of its query |
| Query.ParseLinkStartingAfterAbsent | pkg/rostering/cleverclient.go:43-54 | the result is "" when the URI does not parse or no pair of its query is a well-formed `starting_after` pair |
| Query.ParseLinkCursorRoundTrip | pkg/rostering/cleverclient.go:43-54 | a link built as `<base>?starting_after=<QueryEscape(cursor)>` yields the cursor back |
| Query.ParseLinkFirstWins | pkg/rostering/cleverclient.go:48-52 | only the first `starting_after` value counts; pairs after it are ignored |
| Query.ParseLinkExample | pkg/rostering/cleverclient.go:43-54 | `https://api.example.com/v2.1/students?starting_after=abc123` yields `abc123` |
| Query.QueryValuesBySplit | pkg/rostering/cleverclient.go:48 | walking the query with a cut at each `&` collects the same values as splitting it at every `&` first |
| Query.QueryValuesJoin | pkg/rostering/cleverclient.go:48 | joining two queries with `&` concatenates their value lists |
| Query.UnescapeQueryEscape | pkg/rostering/cleverclient.go:48 | unescaping undoes `url.QueryEscape` on every byte string |
| Token.Credentials | pkg/rostering/token.go:33-39 | the joined credentials are the chosen id variable, ":", then the chosen secret variable; an unset variable reads as "" |
| Token.CredentialsValidIff | pkg/rostering/token.go:41-46 | a joined pair is accepted exactly when the id is non-empty and does not start with ':' and the secret is non-empty and does not end with ':' |
| Token.CredentialsSplit | pkg/rostering/token.go:33-39 | when the id has no ':', cutting the joined pair at its first ':' gives back the id and the secret |
| Token.BasicAuthorizationDecodes | pkg/rostering/token.go:47-50 | a receiver that strips "Basic " and decodes the rest with any inverse of the encoding gets back the joined credentials; when the id has no `:`, splitting them at the first `:` gives back the application's id and secret |
| Token.GetCleverToken | pkg/rostering/token.go:19-89 | a request goes out exactly when the URL is accepted and the credentials are valid; it carries the token URL and the Basic header; a rejected URL or credentials give their error; a transport failure, a non-2xx status (with the district) and an undecodable body give theirs; a 2xx reply gives the first access token, or "" when there is none or no body; a token implies a 2xx reply |
| Token.TokenNeedsCredentials | pkg/rostering/token.go:41-54 | no token request is sent unless both variables of the chosen pair are set |
| Commands.Index | cmd/command.go:37-41 | every command is found under its usage line, each key maps to a command with that usage line, and the last command is found under its own usage line |
| Commands.IndexLastWins | cmd/command.go:37-41 | a later command overwrites an earlier one: each key maps to the last command with that usage line |
| Commands.RegistryIndex | cmd/command.go:32-41 | the command map holds exactly "version" and "diff" with their commands |
| Commands.Run | cmd/command.go:31-63 | the commands are listed exactly when there are no arguments or only "help"; the listing is the header then one line per command; an error `<arg>: invalid command` exactly when no usage line matches; otherwise the matching command runs on the remaining arguments |
| Commands.HelpWithArguments | cmd/command.go:44-60 | "help" followed by more arguments is refused as an invalid command |
| Commands.RunFindsCommand | cmd/command.go:55-62 | each registered command is reached by its name and receives the arguments after it |
| Commands.IsFlagDash | cmd/command.go:68 | the "--" test adds nothing: an argument is kept exactly when it starts with "-" |
| Commands.GetFlags | cmd/command.go:65-73 | the result is the arguments after the program name that start with "-", in order; it is a subsequence of them and keeps every occurrence of each kept argument |
| Missing.IdSet | cmd/roster.go:162-166 | the growth id set is built exactly when every id is set, and holds exactly those ids |
| Missing.FindMissingAsWrittenEmpty | cmd/roster.go:158-175 | as written, the comparison panics on a nil growth id, panics when the accelerator is longer than the growth collection, and otherwise reports nothing |
| Missing.FindMissingFilters | cmd/roster.go:162-173 | the intended comparison succeeds exactly when every id on both sides is set, and returns the accelerator ids absent from the growth collection |
| Missing.FindMissingReports | cmd/roster.go:167-173 | each reported id is an accelerator id absent from growth; each absent id is reported as often as it occurs; the report keeps accelerator order |
| Missing.AsWrittenMissesAbsentIds | cmd/roster.go:168-173 | whenever the accelerator holds an id the growth side lacks, the as-written loop reports nothing while the intended comparison reports that id |
| Rosters.AssembleStopsAtFirstHalt | cmd/roster.go:237-285 | the fetches run in order and stop after the first that fails; every earlier one succeeded; the failure is that fetch's; success means all ran |
| Rosters.AssembleRoster | cmd/roster.go:231-286 | GetRoster over its fetches: one to seven calls in the fixed order; the first failure is returned; a roster is returned only when all seven succeed |
| Rosters.GetRoster | cmd/roster.go:231-286 | the fetches are made in the order districts, schools, students, teachers, district admins, school admins, sections; the first failure ends the run with that failure |
| Rosters.AssembledFields | cmd/roster.go:241-285 | in a returned roster each field is exactly what its fetch delivered |
| Rosters.GetRosterFields | cmd/roster.go:237-285 | in a returned roster each field is the result of its fetch against the matching endpoint |
| Rosters.GetRosterLimits | cmd/roster.go:243-283 | every request to a paginated endpoint asks for pages of 1000; the districts request has no parameters |
| Rosters.DistrictNameUnnamed | cmd/roster.go:87-93 | with no named district the reported name is "" |
| Rosters.DistrictNameLastNamed | cmd/roster.go:87-93 | otherwise it is the name of the last district that has one |
| Rosters.PickDistrictName | cmd/roster.go:87-93 | the source's overwriting loop picks that same name |
| Rosters.Report | cmd/roster.go:95-111 | as written, the report fails only on a comparison panic, and a report that exists lists no student, teacher or school |
| Rosters.ReportAsWritten | cmd/roster.go:95-111 | as written, students are compared first, then teachers, then schools; a nil growth id, or an accelerator collection longer than the growth one (for schools, more accelerator teachers than growth schools), panics; otherwise the report names the district and the accelerator roster's district name and lists nothing |
| Rosters.ReportIntendedListsMissing | cmd/roster.go:95-111 | with the corrected comparison, not the program's: the report exists exactly when every id on both sides is set; it lists for students, teachers and schools the accelerator ids the growth roster lacks |
| Rosters.FetchSide | pkg/rostering/cleverclient.go:17-41 | one side sends at most one token request, with its own application's credentials; roster fetches and success both need that request; failures are token or roster failures |
| Rosters.Combine | cmd/roster.go:54-86 | the growth side's requests and fetches count only after the accelerator side succeeded; both rosters are obtained exactly when both sides succeed; otherwise the error is that of the first side that failed |
| Rosters.DiffDistrict | cmd/roster.go:54-86 | at most two token requests, the accelerator's first and the growth side's second; no roster fetch before a token request |
| Rosters.Conclude | cmd/roster.go:95-111 | the report keeps the requests already made; a failure to obtain the rosters is passed on unchanged; the only new failure is a comparison panic; with the as-written comparison a report lists nothing |
| Rosters.DiffWith | cmd/roster.go:28-43 | an empty `-district` is refused with the required-argument message before any token request or fetch; rejected flags send nothing either; otherwise the token order of `DiffDistrict` holds |
| Rosters.Diff | cmd/roster.go:28-111 | as the program runs, a diff that returns a report lists no missing student, teacher or school |
| Rosters.DiffReportsNothing | cmd/roster.go:28-111 | as written, a report exists only when the flags name a district, both tokens and both rosters were obtained, every growth id is set, and the accelerator has no more students or teachers than the growth side and no more teachers than the growth side has schools; it names the district, takes the name from the accelerator roster and lists nothing |
| Rosters.DiffIntendedReportsMissing | cmd/roster.go:28-111 | with the corrected comparison, not the program's: a report exists only when the flags name a district, both tokens and both rosters were obtained and every id is set; it names the district, takes the name from the accelerator roster and lists the accelerator ids the growth roster lacks |
| Rosters.AsWrittenReportsNothing | cmd/roster.go:158-215 | none of the three comparisons as written can report a record: each panics or returns nothing |
| Rosters.StudentsAsWrittenCounterexample | cmd/roster.go:158-175 | growth students a, b and accelerator student c: nothing as written, c as intended |
| Rosters.SchoolsAsWrittenCounterexample | cmd/roster.go:198-215 | one accelerator school absent from growth: nothing as written, that school as intended; one more accelerator teacher than growth schools makes the as-written loop index past the end |

## Left out

- `GetCleverClient` (pkg/rostering/cleverclient.go:17-41) is kept only as a token followed by a roster with that token. Building the bearer-token provider and the generated client are assumed never to fail. The generated client is not part of this model.
- The retrying transport (`pester`, with `MaxRetries` of 8) involves timing and randomness. A `TransportErr` reply stands for its final failure.
- JSON decoding and `UseNumber` are not modelled. Replies arrive as a malformed body or a decoded envelope. Closing response bodies is not modelled either.
- `url.Parse` acceptance, `http.NewRequest` acceptance of the token URL, and base64 encoding are library calls. They are parameters.
- The `flag` package is a parameter `parseFlags` applied to what `getFlags` selects. The source's `flag.CommandLine` exits the process on a parse error; the model returns `FlagsRejected` instead. It is the flag package's business how `-district X`, whose value `getFlags` drops, is read.
- Mailing the report, the optional JSON file (cmd/roster.go:113-152), logging and `context` are I/O. The diff model ends at the report.
- The `version` command only logs. `Commands.Run` returns the chosen command and its arguments; the diff itself is `Rosters.Diff`.
- `main.go`, `pkg/mail`, `pkg/version` and `pkg/tripperware` are not part of this model.
- `CleverClient.Fetch` and `Rosters.GetRoster`: a server that never stops sending "next" links makes the source loop forever. The model stops after `fuel` requests with `OutOfFuel`, and the roster fails with `Exhausted`.
- The source's `resp == nil` check after a successful token request cannot fire. A nil response body is `NoBody`.
- Go's nil and empty slices are both the empty sequence. No caller tells them apart.

## Findings

| source | as written | input that shows it | evidently intended | confidence | as-written member | corrected member |
|---|---|---|---|---|---|---|
| cmd/roster.go:168-173 | `findMissingStudents` ranges over the accelerator's indices but reads the growth records. Every id it tests is already in the growth set, so it reports nothing, or panics when the accelerator is longer. `findMissingTeachers` (lines 188-193) is the same. | growth students with ids a, b; accelerator student with id c: reports nothing instead of c | the accelerator ids absent from the growth collection, in accelerator order | high; not executed | Missing.FindMissingAsWritten, with Missing.FindMissingAsWrittenEmpty and Rosters.StudentsAsWrittenCounterexample; Rosters.Diff, with Rosters.DiffReportsNothing | Missing.FindMissing, with Missing.FindMissingFilters and Missing.FindMissingReports; Rosters.DiffIntended, with Rosters.DiffIntendedReportsMissing |
| cmd/roster.go:208-209 | `findMissingSchools` bounds its loop by the accelerator's teacher count and reads growth schools. | growth school s1, accelerator school s2 and one teacher: reports nothing instead of s2; with two accelerator teachers it indexes past the end | the accelerator school ids absent from the growth schools | high; not executed | Rosters.FindMissingSchoolsAsWritten, with Rosters.SchoolsAsWrittenCounterexample; Rosters.Diff, with Rosters.DiffReportsNothing | Missing.FindMissing, with Missing.FindMissingFilters; Rosters.DiffIntended, with Rosters.DiffIntendedReportsMissing |

=== FILE: cleverclient.dfy ===
/** The cursor-paginated fetch loop of pkg/rostering/cleverclient.go.

    The source repeats one loop six times (schools, district admins,
    students, teachers, school admins, sections); here it is written once,
    generic in the record type, with a `Kind` that fixes the endpoint path and
    the nil checks each copy does or does not make. The API server is a
    function from request to reply, JSON decoding has already happened (a reply
    body is either malformed or a decoded envelope), and every Go pointer the
    loop dereferences is an `Option` whose `None` leads to a `Panic` outcome.
    A server that keeps sending "next" links would make the source loop
    forever; the model stops after `fuel` requests with `OutOfFuel`.
    The helper that turns a "next" link's URI into the next cursor is the
    parameter `cursorOf`; the roster instantiates it with
    `Query.ParseLinkStartingAfter`, whose own properties live in `Query`. */
module CleverClient {
  import opened Wrappers
  import Seqs

  /** IsHTTPSuccess: the status lies in the 2xx class, the successful
      responses of section 15.3 of RFC 9110 (first digit 2). */
  function IsHTTPSuccess(code: int): (ok: bool)
    ensures ok <==> 0 <= code && code / 100 == 2
  {
    code >= 200 && code <= 299
  }

  /** The query parameters of one list request: `limit` and the optional
      `starting_after` cursor. */
  datatype Request = Request(limit: Option<int>, startingAfter: Option<string>)

  /** One entry of an envelope's `links` array. */
  datatype Link = Link(rel: Option<string>, uri: Option<string>)

  /** One entry of an envelope's `data` array: a record wrapped in `data`. */
  datatype Wrapped<T> = Wrapped(data: Option<T>)

  /** A decoded list response. Either array may be absent. */
  datatype Envelope<T> = Envelope(data: Option<seq<Wrapped<T>>>, links: Option<seq<Link>>)

  datatype Body<T> = Malformed(reason: string) | Decoded(envelope: Envelope<T>)

  /** What one request brings back: a transport failure (after the retrying
      transport has given up), or a status with a body. */
  datatype Reply<T> = TransportErr(cause: string) | Http(status: int, body: Body<T>)

  /** The six paginated collections. */
  datatype Kind = Schools | DistrictAdmins | Students | Teachers | SchoolAdmins | Sections

  function Path(kind: Kind): string {
    match kind
    case Schools => "/schools"
    case DistrictAdmins => "/district_admins"
    case Students => "/students"
    case Teachers => "/teachers"
    case SchoolAdmins => "/school_admins"
    case Sections => "/sections"
  }

  const DistrictsPath := "/districts"

  /** Whether the copy for `kind` checks `Data` for nil before dereferencing
      it: the district-admin and teacher copies do not. */
  predicate GuardsData(kind: Kind) {
    kind != DistrictAdmins && kind != Teachers
  }

  /** Whether the copy for `kind` checks `Links` for nil before dereferencing
      it: only the district-admin copy does not. */
  predicate GuardsLinks(kind: Kind) {
    kind != DistrictAdmins
  }

  /** The nil pointer whose dereference panics. `NilCursor` is the
      `StartingAfter` parameter printed in the error message for a failed
      first page. */
  datatype PanicCause = NilCursor | NilData | NilItem | NilLinks | NilRel | NilUri

  /** The error a fetch returns. `Status` carries the path, the status code
      and the cursor in use (absent for the one-shot districts fetch). */
  datatype FetchError =
    | Transport(cause: string)
    | Decode(cause: string)
    | Status(path: string, code: int, cursor: Option<string>)

  /** The result of a fetch: Go's `(items, err)` pair, where `partial` is
      the item pointer returned beside an error (`None` for nil). */
  datatype Fetched<T> =
    | Ok(items: seq<T>)
    | Err(error: FetchError, partial: Option<seq<T>>)
    | Panic(cause: PanicCause)
    | OutOfFuel

  /** A fetch's outcome and the requests it sent, in order. */
  datatype Run<T> = Run(outcome: Fetched<T>, requests: seq<Request>)

  /** The error a reply ends a fetch with when it is neither a status
      error nor a page: the transport failure itself, or the decoding
      failure of a 2xx body. */
  function OtherError<T>(reply: Reply<T>): Option<FetchError> {
    match reply
    case TransportErr(e) => Some(Transport(e))
    case Http(status, body) =>
      if IsHTTPSuccess(status) && body.Malformed? then Some(Decode(body.reason)) else None
  }

  /** The records of a page's `data` array, in order, or None when one of
      them is a nil pointer. */
  function Unwrap<T>(items: seq<Wrapped<T>>): (r: Option<seq<T>>)
    ensures r.Some? <==> forall i :: 0 <= i < |items| ==> items[i].data.Some?
    ensures r.Some? ==> |r.value| == |items|
    ensures r.Some? ==> forall i :: 0 <= i < |items| ==> r.value[i] == items[i].data.value
  {
    if items == [] then Some([])
    else
      match items[0].data
      case None => None
      case Some(x) =>
        match Unwrap(items[1..])
        case None => None
        case Some(rest) => Some([x] + rest)
  }

  /** What a decoded page adds to the accumulator. */
  function PageData<T>(kind: Kind, env: Envelope<T>): Result<seq<T>, PanicCause>
  {
    match env.data
    case None => if GuardsData(kind) then Success([]) else Failure(NilData)
    case Some(items) =>
      match Unwrap(items)
      case None => Failure(NilItem)
      case Some(xs) => Success(xs)
  }

  predicate IsNext(link: Link) {
    link.rel == Some("next")
  }

  /** The position of the last "next" link, found by scanning from the end. */
  function LastNextIndex(links: seq<Link>): (k: Option<nat>)
    ensures k.Some? ==> k.value < |links| && IsNext(links[k.value])
    ensures k.Some? ==> forall j :: k.value < j < |links| ==> !IsNext(links[j])
    ensures k.None? ==> forall j :: 0 <= j < |links| ==> !IsNext(links[j])
  {
    if links == [] then None
    else if IsNext(links[|links| - 1]) then Some(|links| - 1)
    else LastNextIndex(links[..|links| - 1])
  }

  /** Links the scan can read without a nil dereference: every `rel` is
      set, and so is the `uri` of every "next" link. */
  predicate WellFormedLinks(links: seq<Link>) {
    forall i :: 0 <= i < |links| ==> links[i].rel.Some? && (IsNext(links[i]) ==> links[i].uri.Some?)
  }

  /** The loop state the links scan updates: the `next` flag and the
      request's `StartingAfter` parameter. */
  datatype Scan = Scan(next: bool, cursor: Option<string>)

  /** The scan of `links` in order: a "next" link raises the flag and
      overwrites the cursor with the one parsed from its URI. */
  function ScanLinks(links: seq<Link>, cursorOf: string -> string, s: Scan): (r: Result<Scan, PanicCause>)
    ensures r.Success? ==> r.value == s || (r.value.next && r.value.cursor.Some?)
    ensures r.Failure? ==> r.error == NilRel || r.error == NilUri
    decreases |links|
  {
    if links == [] then Success(s)
    else
      match links[0].rel
      case None => Failure(NilRel)
      case Some(rel) =>
        if rel == "next" then
          match links[0].uri
          case None => Failure(NilUri)
          case Some(u) => ScanLinks(links[1..], cursorOf, Scan(true, Some(cursorOf(u))))
        else ScanLinks(links[1..], cursorOf, s)
  }

  /** The links part of a decoded page, starting from a cleared flag and the
      cursor of the request that fetched it. */
  function PageLinks<T>(kind: Kind, env: Envelope<T>, cursorOf: string -> string, cursor: Option<string>)
    : Result<Scan, PanicCause>
  {
    match env.links
    case None => if GuardsLinks(kind) then Success(Scan(false, cursor)) else Failure(NilLinks)
    case Some(links) => ScanLinks(links, cursorOf, Scan(false, cursor))
  }

  /** The records of a decoded page, in order; a page without a `data`
      array has none. */
  function EnvelopeItems<T>(env: Envelope<T>): seq<T> {
    match env.data
    case None => []
    case Some(items) => Unwrap(items).GetOr([])
  }

  /** The records a reply carries, if it is a decoded page. */
  function ReplyItems<T>(reply: Reply<T>): seq<T> {
    match reply
    case Http(_, Decoded(env)) => EnvelopeItems(env)
    case _ => []
  }

  /** The records carried by the replies to `requests`, concatenated in
      request order. */
  function TraceItems<T>(server: Request -> Reply<T>, requests: seq<Request>): seq<T> {
    if requests == [] then [] else ReplyItems(server(requests[0])) + TraceItems(server, requests[1..])
  }

  lemma TraceItemsCons<T>(server: Request -> Reply<T>, request: Request, rest: seq<Request>)
    ensures TraceItems(server, [request] + rest) == ReplyItems(server(request)) + TraceItems(server, rest)
  {
    assert ([request] + rest)[1..] == rest;
  }

  lemma TraceItemsSingle<T>(server: Request -> Reply<T>, request: Request)
    ensures TraceItems(server, [request]) == ReplyItems(server(request))
  {
    assert [request][1..] == [];
    Seqs.AppendEmpty(ReplyItems(server(request)));
  }

  /** How one round of the loop ends: the fetch stops with an outcome, or
      it goes on with the grown accumulator and the cursor of the last
      "next" link. */
  datatype Step<T> = Stop(outcome: Fetched<T>) | Continue(acc: seq<T>, cursor: Option<string>)

  /** The body of the loop for the reply to the request sent with `cursor`,
      with `acc` collected before it. */
  function PageStep<T>(kind: Kind, cursorOf: string -> string, cursor: Option<string>, acc: seq<T>, reply: Reply<T>)
    : (s: Step<T>)
    ensures s.Continue? ==> s.cursor.Some?
  {
    match reply
    case TransportErr(e) => Stop(Err(Transport(e), None))
    case Http(status, body) =>
      if !IsHTTPSuccess(status) then
        match cursor
        case None => Stop(Panic(NilCursor))
        case Some(_) => Stop(Err(Status(Path(kind), status, cursor), Some(acc)))
      else
        match body
        case Malformed(e) => Stop(Err(Decode(e), None))
        case Decoded(env) =>
          match PageData(kind, env)
          case Failure(p) => Stop(Panic(p))
          case Success(items) =>
            match PageLinks(kind, env, cursorOf, cursor)
            case Failure(p) => Stop(Panic(p))
            case Success(scan) =>
              if !scan.next then Stop(Ok(acc + items)) else Continue(acc + items, scan.cursor)
  }

  /** A loop body: how one request ends, given the cursor it was sent with,
      the records collected before it and its reply. */
  type LoopBody<!T> = (Option<string>, seq<T>, Reply<T>) -> Step<T>

  /** The pagination loop with any body, from the request with `cursor`
      onwards, with `acc` already collected: every request carries the
      limit, and the loop runs until the body stops or the fuel runs out. */
  function Loop<T>(server: Request -> Reply<T>, body: LoopBody<T>, limit: int,
                   cursor: Option<string>, acc: seq<T>, fuel: nat): (r: Run<T>)
    ensures |r.requests| <= fuel
    ensures fuel > 0 ==> |r.requests| >= 1 && r.requests[0] == Request(Some(limit), cursor)
    ensures fuel == 0 ==> r == Run(OutOfFuel, [])
    decreases fuel
  {
    if fuel == 0 then Run(OutOfFuel, [])
    else
      var request := Request(Some(limit), cursor);
      match body(cursor, acc, server(request))
      case Stop(outcome) => Run(outcome, [request])
      case Continue(acc', cursor') =>
        var rest := Loop(server, body, limit, cursor', acc', fuel - 1);
        Run(rest.outcome, [request] + rest.requests)
  }

  /** The loop body of GetCleverSchools and its five sister functions. */
  function PageBody<T>(kind: Kind, cursorOf: string -> string): LoopBody<T> {
    (cursor, acc, reply) => PageStep(kind, cursorOf, cursor, acc, reply)
  }

  /** The loop of GetCleverSchools and its sisters, from the request with
      `cursor` onwards. */
  function Paginate<T>(server: Request -> Reply<T>, cursorOf: string -> string, kind: Kind, limit: int,
                       cursor: Option<string>, acc: seq<T>, fuel: nat): Run<T>
  {
    Loop(server, PageBody(kind, cursorOf), limit, cursor, acc, fuel)
  }

  /** GetCleverSchools and its sisters: the first request carries the limit
      and no cursor. */
  function Fetch<T>(server: Request -> Reply<T>, cursorOf: string -> string, kind: Kind, limit: int, fuel: nat)
    : Run<T>
  {
    Paginate(server, cursorOf, kind, limit, None, [], fuel)
  }

  /** GetCleverDistricts: one request without parameters; a nil `data`
      array gives no districts, and links are ignored. */
  function FetchDistricts<T>(server: Request -> Reply<T>): (r: Run<T>)
    ensures r.requests == [Request(None, None)]
    ensures var reply := server(Request(None, None));
      r.outcome.Ok? <==>
        && reply.Http? && IsHTTPSuccess(reply.status) && reply.body.Decoded?
        && (reply.body.envelope.data.Some? ==>
              forall i :: 0 <= i < |reply.body.envelope.data.value| ==> reply.body.envelope.data.value[i].data.Some?)
    ensures var reply := server(Request(None, None));
      r.outcome.Ok? ==>
        var data := reply.body.envelope.data;
        && (data.None? ==> r.outcome.items == [])
        && (data.Some? ==>
              && |r.outcome.items| == |data.value|
              && forall i :: 0 <= i < |data.value| ==> r.outcome.items[i] == data.value[i].data.value)
    ensures var reply := server(Request(None, None));
      reply.Http? && !IsHTTPSuccess(reply.status) ==>
        r.outcome == Err(Status(DistrictsPath, reply.status, None), None)
    ensures r.outcome.Err? ==> r.outcome.partial.None?
    ensures var reply := server(Request(None, None));
      r.outcome.Err? && r.outcome.error.Status? ==> reply.Http? && !IsHTTPSuccess(reply.status)
    ensures var reply := server(Request(None, None));
      r.outcome == Panic(NilItem) <==>
        && reply.Http? && IsHTTPSuccess(reply.status) && reply.body.Decoded?
        && reply.body.envelope.data.Some?
        && exists i :: 0 <= i < |reply.body.envelope.data.value| && reply.body.envelope.data.value[i].data.None?
    ensures var reply := server(Request(None, None));
      && (OtherError(reply).Some? ==> r.outcome == Err(OtherError(reply).value, None))
      && (r.outcome.Err? && !r.outcome.error.Status? ==> OtherError(reply) == Some(r.outcome.error))
  {
    var request := Request(None, None);
    match server(request)
    case TransportErr(e) => Run(Err(Transport(e), None), [request])
    case Http(status, body) =>
      if !IsHTTPSuccess(status) then Run(Err(Status(DistrictsPath, status, None), None), [request])
      else
        match body
        case Malformed(e) => Run(Err(Decode(e), None), [request])
        case Decoded(env) =>
          match env.data
          case None => Run(Ok([]), [request])
          case Some(items) =>
            match Unwrap(items)
            case None => Run(Panic(NilItem), [request])
            case Some(xs) => Run(Ok(xs), [request])
  }

  /** Prefixes already-sent requests to a run. */
  function Graft<T>(sent: seq<Request>, run: Run<T>): Run<T> {
    Run(run.outcome, sent + run.requests)
  }

  /** The inner loop over a page's records: appends each unwrapped record
      to `acc`, or stops at the first nil one. */
  method AppendPage<T>(kind: Kind, env: Envelope<T>, acc: seq<T>) returns (r: Result<seq<T>, PanicCause>)
    ensures r == match PageData(kind, env) case Success(xs) => Success(acc + xs) case Failure(p) => Failure(p)
  {
    if env.data.None? {
      if !GuardsData(kind) {
        return Failure(NilData);
      }
      assert acc + [] == acc;
      return Success(acc);
    }
    var data := env.data.value;
    var out := acc;
    for i := 0 to |data|
      invariant forall j :: 0 <= j < i ==> data[j].data.Some?
      invariant |out| == |acc| + i && out[..|acc|] == acc
      invariant forall j :: 0 <= j < i ==> out[|acc| + j] == data[j].data.value
    {
      if data[i].data.None? {
        return Failure(NilItem);
      }
      out := out + [data[i].data.value];
    }
    assert out == acc + Unwrap(data).value;
    return Success(out);
  }

  /** The inner loop over a page's links. */
  method ScanPageLinks<T>(kind: Kind, env: Envelope<T>, cursorOf: string -> string, cursor: Option<string>)
    returns (r: Result<Scan, PanicCause>)
    ensures r == PageLinks(kind, env, cursorOf, cursor)
  {
    if env.links.None? {
      if !GuardsLinks(kind) {
        return Failure(NilLinks);
      }
      return Success(Scan(false, cursor));
    }
    var links := env.links.value;
    var next, current := false, cursor;
    for i := 0 to |links|
      invariant ScanLinks(links[i..], cursorOf, Scan(next, current)) == ScanLinks(links, cursorOf, Scan(false, cursor))
    {
      assert links[i..][1..] == links[i + 1..];
      if links[i].rel.None? {
        return Failure(NilRel);
      }
      if links[i].rel.value == "next" {
        if links[i].uri.None? {
          return Failure(NilUri);
        }
        next := true;
        current := Some(cursorOf(links[i].uri.value));
      }
    }
    assert links[|links|..] == [];
    return Success(Scan(next, current));
  }

  /** The body of the source loop after the request: status check,
      decoding, the records loop and the links loop. */
  method RunPageStep<T>(kind: Kind, cursorOf: string -> string, cursor: Option<string>, acc: seq<T>, reply: Reply<T>)
    returns (s: Step<T>)
    ensures s == PageStep(kind, cursorOf, cursor, acc, reply)
  {
    if reply.TransportErr? {
      return Stop(Err(Transport(reply.cause), None));
    }
    if !IsHTTPSuccess(reply.status) {
      if cursor.None? {
        return Stop(Panic(NilCursor));
      }
      return Stop(Err(Status(Path(kind), reply.status, cursor), Some(acc)));
    }
    if reply.body.Malformed? {
      return Stop(Err(Decode(reply.body.reason), None));
    }
    var env := reply.body.envelope;
    var appended := AppendPage(kind, env, acc);
    if appended.Failure? {
      return Stop(Panic(appended.error));
    }
    var scan := ScanPageLinks(kind, env, cursorOf, cursor);
    if scan.Failure? {
      return Stop(Panic(scan.error));
    }
    if !scan.value.next {
      return Stop(Ok(appended.value));
    }
    return Continue(appended.value, scan.value.cursor);
  }

  /** The loop as the source writes it, with a mutable accumulator and
      request parameters. It sends the same requests and ends the same way
      as `Fetch`. */
  method FetchLoop<T>(server: Request -> Reply<T>, cursorOf: string -> string, kind: Kind, limit: int, fuel: nat)
    returns (run: Run<T>)
    ensures run == Fetch(server, cursorOf, kind, limit, fuel)
  {
    ghost var body := PageBody(kind, cursorOf);
    var acc: seq<T> := [];
    var cursor: Option<string> := None;
    var sent: seq<Request> := [];
    var budget := fuel;
    assert Fetch(server, cursorOf, kind, limit, fuel) == Loop(server, body, limit, None, [], fuel);
    Seqs.AppendEmpty(Loop(server, body, limit, None, [], fuel).requests);
    while true
      invariant Graft(sent, Loop(server, body, limit, cursor, acc, budget)) == Fetch(server, cursorOf, kind, limit, fuel)
      decreases budget
    {
      if budget == 0 {
        Seqs.AppendEmpty(sent);
        return Run(OutOfFuel, sent);
      }
      var request := Request(Some(limit), cursor);
      var step, remaining := FetchRound(server, cursorOf, kind, limit, cursor, acc, budget, sent, body);
      if step.Stop? {
        return Run(step.outcome, sent + [request]);
      }
      sent, acc, cursor, budget := sent + [request], step.acc, step.cursor, remaining;
    }
  }

  /** The body of the source loop: one request, the page it brings back, and
      where the rest of the run goes from there, with the budget left for
      it. */
  method FetchRound<T>(server: Request -> Reply<T>, cursorOf: string -> string, kind: Kind, limit: int,
                       cursor: Option<string>, acc: seq<T>, fuel: nat, sent: seq<Request>, ghost body: LoopBody<T>)
    returns (step: Step<T>, remaining: nat)
    requires fuel > 0
    requires body == PageBody(kind, cursorOf)
    ensures remaining == fuel - 1
    ensures step.Stop? ==>
      Graft(sent, Loop(server, body, limit, cursor, acc, fuel))
        == Run(step.outcome, sent + [Request(Some(limit), cursor)])
    ensures step.Continue? ==>
      Graft(sent, Loop(server, body, limit, cursor, acc, fuel))
        == Graft(sent + [Request(Some(limit), cursor)], Loop(server, body, limit, step.cursor, step.acc, remaining))
  {
    remaining := fuel - 1;
    step := RunPageStep(kind, cursorOf, cursor, acc, server(Request(Some(limit), cursor)));
    assert body(cursor, acc, server(Request(Some(limit), cursor))) == step;
    LoopRound(server, body, limit, cursor, acc, fuel, sent);
  }

  /** One round of the loop, seen from the requests already sent. */
  lemma LoopRound<T>(server: Request -> Reply<T>, body: LoopBody<T>, limit: int,
                     cursor: Option<string>, acc: seq<T>, fuel: nat, sent: seq<Request>)
    requires fuel > 0
    ensures var request := Request(Some(limit), cursor);
      var step := body(cursor, acc, server(request));
      && (step.Stop? ==>
            Graft(sent, Loop(server, body, limit, cursor, acc, fuel)) == Run(step.outcome, sent + [request]))
      && (step.Continue? ==>
            Graft(sent, Loop(server, body, limit, cursor, acc, fuel))
              == Graft(sent + [request], Loop(server, body, limit, step.cursor, step.acc, fuel - 1)))
  {
    var request := Request(Some(limit), cursor);
    var step := body(cursor, acc, server(request));
    if step.Continue? {
      var rest := Loop(server, body, limit, step.cursor, step.acc, fuel - 1);
      assert sent + ([request] + rest.requests) == (sent + [request]) + rest.requests;
    }
  }

  /** A reply that is a well-read 2xx page: all its records and links can be
      dereferenced by the copy for `kind`. */
  predicate Readable<T>(kind: Kind, reply: Reply<T>) {
    && reply.Http? && IsHTTPSuccess(reply.status) && reply.body.Decoded?
    && var env := reply.body.envelope;
    && (env.data.None? ==> GuardsData(kind))
    && (env.data.Some? ==> forall i :: 0 <= i < |env.data.value| ==> env.data.value[i].data.Some?)
    && (env.links.None? ==> GuardsLinks(kind))
    && (env.links.Some? ==> WellFormedLinks(env.links.value))
  }

  /** The cursor the "next" links of a reply lead to: the one parsed from
      the URI of the last "next" link; None when the page has none. */
  function NextCursor<T>(reply: Reply<T>, cursorOf: string -> string): Option<string>
  {
    if reply.Http? && reply.body.Decoded? && reply.body.envelope.links.Some? then
      var links := reply.body.envelope.links.value;
      match LastNextIndex(links)
      case None => None
      case Some(k) => if links[k].uri.Some? then Some(cursorOf(links[k].uri.value)) else None
    else None
  }

  /** The links scan succeeds exactly on well-formed links, and then the
      cursor comes from the last "next" link, however many there are. */
  lemma {:induction false} ScanLinksLastNext(links: seq<Link>, cursorOf: string -> string, s: Scan)
    ensures ScanLinks(links, cursorOf, s).Success? <==> WellFormedLinks(links)
    ensures ScanLinks(links, cursorOf, s).Success? ==>
      ScanLinks(links, cursorOf, s).value ==
        match LastNextIndex(links)
        case None => s
        case Some(k) => Scan(true, Some(cursorOf(links[k].uri.value)))
    decreases |links|
  {
    if links != [] {
      var tail := links[1..];
      var s' := if IsNext(links[0]) && links[0].uri.Some?
        then Scan(true, Some(cursorOf(links[0].uri.value))) else s;
      ScanLinksLastNext(tail, cursorOf, s');
      assert WellFormedLinks(links) <==> links[0].rel.Some? && (IsNext(links[0]) ==> links[0].uri.Some?) && WellFormedLinks(tail) by {
        if links[0].rel.Some? && (IsNext(links[0]) ==> links[0].uri.Some?) && WellFormedLinks(tail) {
          forall i | 0 <= i < |links| ensures links[i].rel.Some? && (IsNext(links[i]) ==> links[i].uri.Some?) {
            if i > 0 { assert links[i] == tail[i - 1]; }
          }
        }
      }
      match LastNextIndex(tail)
      case Some(k) =>
        assert links[k + 1] == tail[k];
        assert forall j :: k + 1 < j < |links| ==> links[j] == tail[j - 1];
      case None =>
        assert forall j :: 0 < j < |links| ==> links[j] == tail[j - 1];
    }
  }

  /** A page step that goes on, or ends with success, has appended exactly
      the records of the reply to what was collected before. */
  lemma PageStepItems<T>(kind: Kind, cursorOf: string -> string, cursor: Option<string>, acc: seq<T>, reply: Reply<T>)
    ensures var step := PageStep(kind, cursorOf, cursor, acc, reply);
      step.Continue? ==> step.acc == acc + ReplyItems(reply)
    ensures var step := PageStep(kind, cursorOf, cursor, acc, reply);
      step.Stop? && step.outcome.Ok? ==> step.outcome.items == acc + ReplyItems(reply)
  {
  }

  /** A page step goes on, or ends with success, only on a readable page:
      it goes on with the cursor of the page's last "next" link, and ends
      with success when the page has none. */
  lemma PageStepLinks<T>(kind: Kind, cursorOf: string -> string, cursor: Option<string>, acc: seq<T>, reply: Reply<T>)
    ensures var step := PageStep(kind, cursorOf, cursor, acc, reply);
      step.Continue? ==> Readable(kind, reply) && NextCursor(reply, cursorOf).Some? && step.cursor == NextCursor(reply, cursorOf)
    ensures var step := PageStep(kind, cursorOf, cursor, acc, reply);
      step.Stop? && step.outcome.Ok? ==> Readable(kind, reply) && NextCursor(reply, cursorOf).None?
  {
    if reply.Http? && reply.body.Decoded? && reply.body.envelope.links.Some? {
      ScanLinksLastNext(reply.body.envelope.links.value, cursorOf, Scan(false, cursor));
    }
  }

  /** On a readable page, a page step appends the page's records and goes
      on exactly when the page has a "next" link, with that link's cursor. */
  lemma PageStepReadable<T>(kind: Kind, cursorOf: string -> string, cursor: Option<string>, acc: seq<T>, reply: Reply<T>)
    requires Readable(kind, reply)
    ensures PageStep(kind, cursorOf, cursor, acc, reply) ==
      if NextCursor(reply, cursorOf).None? then Stop(Ok(acc + ReplyItems(reply)))
      else Continue(acc + ReplyItems(reply), NextCursor(reply, cursorOf))
  {
    var env := reply.body.envelope;
    if env.links.Some? {
      ScanLinksLastNext(env.links.value, cursorOf, Scan(false, cursor));
    }
    assert PageData(kind, env) == Success(EnvelopeItems(env));
  }

  /** How the body of the paginated fetches fails: a non-2xx status on a
      request with a cursor is reported with the path, the status and that
      cursor, keeping the records collected so far; a status error arises
      in no other way; on a request without a cursor a non-2xx status
      dereferences the nil cursor; other errors keep nothing; a nil `data` or `links` array panics
      only for the copies that do not check it. */
  lemma PageStepErrors<T>(kind: Kind, cursorOf: string -> string, cursor: Option<string>, acc: seq<T>, reply: Reply<T>)
    ensures var step := PageStep(kind, cursorOf, cursor, acc, reply);
      step.Stop? && step.outcome.Err? && step.outcome.error.Status? ==>
        && reply.Http? && !IsHTTPSuccess(reply.status) && cursor.Some?
        && step.outcome.error == Status(Path(kind), reply.status, cursor)
        && step.outcome.partial == Some(acc)
    ensures reply.Http? && !IsHTTPSuccess(reply.status) && cursor.Some? ==>
      PageStep(kind, cursorOf, cursor, acc, reply) == Stop(Err(Status(Path(kind), reply.status, cursor), Some(acc)))
    ensures var step := PageStep(kind, cursorOf, cursor, acc, reply);
      step.Stop? && step.outcome.Err? && !step.outcome.error.Status? ==> step.outcome.partial.None?
    ensures var step := PageStep(kind, cursorOf, cursor, acc, reply);
      && (OtherError(reply).Some? ==> step == Stop(Err(OtherError(reply).value, None)))
      && (step.Stop? && step.outcome.Err? && !step.outcome.error.Status? ==> OtherError(reply) == Some(step.outcome.error))
    ensures PageStep(kind, cursorOf, cursor, acc, reply) == Stop(Panic(NilCursor)) <==>
      cursor.None? && reply.Http? && !IsHTTPSuccess(reply.status)
    ensures PageStep(kind, cursorOf, cursor, acc, reply) == Stop(Panic(NilData)) ==> !GuardsData(kind)
    ensures PageStep(kind, cursorOf, cursor, acc, reply) == Stop(Panic(NilLinks)) ==> !GuardsLinks(kind)
  {
  }

  // Facts about a loop body that the loop lemmas below rely on.

  /** The body goes on only with a cursor. */
  ghost predicate ContinuesWithCursor<T(!new)>(body: LoopBody<T>) {
    forall c, a, x :: body(c, a, x).Continue? ==> body(c, a, x).cursor.Some?
  }

  /** The body appends the records of the reply when it goes on or stops
      with success. */
  ghost predicate AppendsReplies<T(!new)>(body: LoopBody<T>) {
    forall c, a, x ::
      && (body(c, a, x).Continue? ==> body(c, a, x).acc == a + ReplyItems(x))
      && (body(c, a, x).Stop? && body(c, a, x).outcome.Ok? ==> body(c, a, x).outcome.items == a + ReplyItems(x))
  }

  /** The body goes on, or stops with success, only on a readable page, and
      follows that page's last "next" link. */
  ghost predicate FollowsLinks<T(!new)>(body: LoopBody<T>, kind: Kind, cursorOf: string -> string) {
    forall c, a, x ::
      && (body(c, a, x).Continue? ==>
            Readable(kind, x) && NextCursor(x, cursorOf).Some? && body(c, a, x).cursor == NextCursor(x, cursorOf))
      && (body(c, a, x).Stop? && body(c, a, x).outcome.Ok? ==> Readable(kind, x) && NextCursor(x, cursorOf).None?)
  }

  /** The body reports a non-2xx status on a request with a cursor with
      `path`, the status and that cursor, keeping what was collected; and
      it reports a status in no other case. */
  ghost predicate ReportsStatus<T(!new)>(body: LoopBody<T>, path: string) {
    forall c: Option<string>, a: seq<T>, x: Reply<T> ::
      && (x.Http? && !IsHTTPSuccess(x.status) && c.Some? ==> body(c, a, x) == Stop(Err(Status(path, x.status, c), Some(a))))
      && (body(c, a, x).Stop? && body(c, a, x).outcome.Err? && body(c, a, x).outcome.error.Status? ==>
            && x.Http? && !IsHTTPSuccess(x.status) && c.Some?
            && body(c, a, x).outcome.error == Status(path, x.status, c)
            && body(c, a, x).outcome.partial == Some(a))
  }

  /** The body stops on a transport or decoding failure with that very
      error and no records, and fails other than on a status only so. */
  ghost predicate NamesOtherErrors<T(!new)>(body: LoopBody<T>) {
    forall c, a, x ::
      && (OtherError(x).Some? ==> body(c, a, x) == Stop(Err(OtherError(x).value, None)))
      && (body(c, a, x).Stop? && body(c, a, x).outcome.Err? && !body(c, a, x).outcome.error.Status? ==>
            OtherError(x) == Some(body(c, a, x).outcome.error))
  }

  /** The body panics with `cause` only on a request without a cursor. */
  ghost predicate PanicsOnlyWithoutCursor<T(!new)>(body: LoopBody<T>, cause: PanicCause) {
    forall c, a, x :: body(c, a, x) == Stop(Panic(cause)) ==> c.None?
  }

  /** The body never panics with `cause`. */
  ghost predicate NeverPanics<T(!new)>(body: LoopBody<T>, cause: PanicCause) {
    forall c, a, x :: body(c, a, x) != Stop(Panic(cause))
  }

  /** The body of the paginated fetches appends each page's records. */
  lemma PageBodyAppends<T(!new)>(kind: Kind, cursorOf: string -> string)
    ensures ContinuesWithCursor(PageBody<T>(kind, cursorOf))
    ensures AppendsReplies(PageBody<T>(kind, cursorOf))
  {
    forall c, a, x {
      PageStepItems<T>(kind, cursorOf, c, a, x);
    }
  }

  /** The body of the paginated fetches follows "next" links. */
  lemma PageBodyFollows<T(!new)>(kind: Kind, cursorOf: string -> string)
    ensures FollowsLinks(PageBody<T>(kind, cursorOf), kind, cursorOf)
  {
    forall c, a, x {
      PageStepLinks<T>(kind, cursorOf, c, a, x);
    }
  }

  /** The body of the paginated fetches fails as `PageStepErrors` says. */
  lemma PageBodyErrors<T(!new)>(kind: Kind, cursorOf: string -> string)
    ensures ReportsStatus(PageBody<T>(kind, cursorOf), Path(kind))
    ensures NamesOtherErrors(PageBody<T>(kind, cursorOf))
  {
    forall c, a, x {
      PageStepErrors<T>(kind, cursorOf, c, a, x);
    }
  }

  /** The body of the paginated fetches panics as `PageStepErrors` says. */
  lemma PageBodyPanics<T(!new)>(kind: Kind, cursorOf: string -> string)
    ensures PanicsOnlyWithoutCursor(PageBody<T>(kind, cursorOf), NilCursor)
    ensures GuardsData(kind) ==> NeverPanics(PageBody<T>(kind, cursorOf), NilData)
    ensures GuardsLinks(kind) ==> NeverPanics(PageBody<T>(kind, cursorOf), NilLinks)
  {
    forall c, a, x {
      PageStepErrors<T>(kind, cursorOf, c, a, x);
    }
  }

  /** One request of the loop, seen from outside: a body that stops ends
      the run after this request, a body that goes on hands the rest of the
      run to the next request. */
  lemma LoopUnfold<T>(server: Request -> Reply<T>, body: LoopBody<T>, limit: int,
                      cursor: Option<string>, acc: seq<T>, fuel: nat)
    requires fuel > 0
    ensures var request := Request(Some(limit), cursor);
      var step := body(cursor, acc, server(request));
      var r := Loop(server, body, limit, cursor, acc, fuel);
      && (step.Stop? ==> r == Run(step.outcome, [request]))
      && (step.Continue? ==>
            var rest := Loop(server, body, limit, step.cursor, step.acc, fuel - 1);
            r == Run(rest.outcome, [request] + rest.requests))
  {
  }

  /** Every request of the loop carries the limit, and, when the body goes
      on only with a cursor, every request after the first carries one. */
  lemma {:induction false} LoopRequests<T(!new)>(server: Request -> Reply<T>, body: LoopBody<T>, limit: int,
                                                 cursor: Option<string>, acc: seq<T>, fuel: nat)
    requires ContinuesWithCursor(body)
    ensures var r := Loop(server, body, limit, cursor, acc, fuel);
      forall i :: 0 <= i < |r.requests| ==> r.requests[i].limit == Some(limit)
    ensures var r := Loop(server, body, limit, cursor, acc, fuel);
      forall i :: 1 <= i < |r.requests| ==> r.requests[i].startingAfter.Some?
    decreases fuel
  {
    if fuel > 0 {
      var request := Request(Some(limit), cursor);
      var step := body(cursor, acc, server(request));
      LoopUnfold(server, body, limit, cursor, acc, fuel);
      if step.Continue? {
        LoopRequests(server, body, limit, step.cursor, step.acc, fuel - 1);
        var rest := Loop(server, body, limit, step.cursor, step.acc, fuel - 1);
        assert forall i :: 1 <= i < |rest.requests| + 1 ==> ([request] + rest.requests)[i] == rest.requests[i - 1];
      }
    }
  }

  /** A loop that succeeds returns, after `acc`, the records of every page
      it requested, in request order. */
  lemma {:induction false} LoopOkItems<T(!new)>(server: Request -> Reply<T>, body: LoopBody<T>, limit: int,
                                                cursor: Option<string>, acc: seq<T>, fuel: nat)
    requires AppendsReplies(body)
    ensures var r := Loop(server, body, limit, cursor, acc, fuel);
      r.outcome.Ok? ==> r.outcome.items == acc + TraceItems(server, r.requests)
    decreases fuel
  {
    if fuel > 0 {
      var request := Request(Some(limit), cursor);
      var step := body(cursor, acc, server(request));
      LoopUnfold(server, body, limit, cursor, acc, fuel);
      if step.Continue? {
        LoopOkItems(server, body, limit, step.cursor, step.acc, fuel - 1);
        var rest := Loop(server, body, limit, step.cursor, step.acc, fuel - 1);
        TraceItemsCons(server, request, rest.requests);
        var items := ReplyItems(server(request));
        Seqs.AppendAssoc(acc, items, TraceItems(server, rest.requests));
      } else if step.outcome.Ok? {
        TraceItemsSingle(server, request);
      }
    }
  }

  /** A loop that fails on a non-2xx status names that status, the path and
      the cursor of the failing request; and a non-2xx reply to a last
      request with a cursor is such a failure. */
  lemma {:induction false} LoopStatusErr<T(!new)>(server: Request -> Reply<T>, body: LoopBody<T>, path: string,
                                            limit: int, cursor: Option<string>, acc: seq<T>, fuel: nat)
    requires ReportsStatus(body, path)
    ensures var r := Loop(server, body, limit, cursor, acc, fuel);
      r.outcome.Err? && r.outcome.error.Status? ==>
        && |r.requests| >= 1
        && var last := r.requests[|r.requests| - 1];
        && server(last).Http? && !IsHTTPSuccess(server(last).status)
        && last.startingAfter.Some?
        && r.outcome.error == Status(path, server(last).status, last.startingAfter)
    ensures var r := Loop(server, body, limit, cursor, acc, fuel);
      |r.requests| >= 1 ==>
        var last := r.requests[|r.requests| - 1];
        server(last).Http? && !IsHTTPSuccess(server(last).status) && last.startingAfter.Some? ==>
          r.outcome.Err? && r.outcome.error == Status(path, server(last).status, last.startingAfter)
    decreases fuel
  {
    if fuel > 0 {
      var request := Request(Some(limit), cursor);
      var step := body(cursor, acc, server(request));
      LoopUnfold(server, body, limit, cursor, acc, fuel);
      if step.Continue? {
        LoopStatusErr(server, body, path, limit, step.cursor, step.acc, fuel - 1);
        var rest := Loop(server, body, limit, step.cursor, step.acc, fuel - 1);
        if |rest.requests| >= 1 {
          assert ([request] + rest.requests)[|rest.requests|] == rest.requests[|rest.requests| - 1];
        }
      }
    }
  }

  /** The records kept before the last request, seen one request earlier. */
  lemma PartialCons<T>(server: Request -> Reply<T>, request: Request, rest: seq<Request>, acc: seq<T>, acc': seq<T>)
    requires |rest| >= 1
    requires acc' == acc + ReplyItems(server(request))
    ensures var all := [request] + rest;
      acc' + TraceItems(server, rest[..|rest| - 1]) == acc + TraceItems(server, all[..|all| - 1])
  {
    var all := [request] + rest;
    var front := rest[..|rest| - 1];
    assert all[..|all| - 1] == [request] + front;
    TraceItemsCons(server, request, front);
    var items := ReplyItems(server(request));
    Seqs.AppendAssoc(acc, items, TraceItems(server, front));
  }

  /** A loop that fails on a non-2xx status keeps exactly the records of
      the pages before the failing one. */
  lemma {:induction false} LoopStatusPartial<T(!new)>(server: Request -> Reply<T>, body: LoopBody<T>, path: string,
                                                      limit: int, cursor: Option<string>, acc: seq<T>, fuel: nat)
    requires AppendsReplies(body)
    requires ReportsStatus(body, path)
    ensures var r := Loop(server, body, limit, cursor, acc, fuel);
      r.outcome.Err? && r.outcome.error.Status? ==>
        |r.requests| >= 1 && r.outcome.partial == Some(acc + TraceItems(server, r.requests[..|r.requests| - 1]))
    decreases fuel
  {
    if fuel > 0 {
      var request := Request(Some(limit), cursor);
      var step := body(cursor, acc, server(request));
      LoopUnfold(server, body, limit, cursor, acc, fuel);
      if step.Continue? {
        LoopStatusPartial(server, body, path, limit, step.cursor, step.acc, fuel - 1);
        var rest := Loop(server, body, limit, step.cursor, step.acc, fuel - 1);
        if rest.outcome.Err? && rest.outcome.error.Status? {
          PartialCons(server, request, rest.requests, acc, step.acc);
        }
      } else {
        assert [request][..0] == [];
        assert acc + [] == acc;
      }
    }
  }

  /** A loop that fails other than on a status fails with the transport
      or decoding error of the reply to its last request, keeping no
      records; and a last reply with such an error ends the loop with it. */
  lemma {:induction false} LoopOtherErr<T(!new)>(server: Request -> Reply<T>, body: LoopBody<T>, limit: int,
                                           cursor: Option<string>, acc: seq<T>, fuel: nat)
    requires NamesOtherErrors(body)
    ensures var r := Loop(server, body, limit, cursor, acc, fuel);
      r.outcome.Err? && !r.outcome.error.Status? ==>
        && r.outcome.partial.None? && |r.requests| >= 1
        && OtherError(server(r.requests[|r.requests| - 1])) == Some(r.outcome.error)
    ensures var r := Loop(server, body, limit, cursor, acc, fuel);
      |r.requests| >= 1 && OtherError(server(r.requests[|r.requests| - 1])).Some? ==>
        r.outcome == Err(OtherError(server(r.requests[|r.requests| - 1])).value, None)
    decreases fuel
  {
    if fuel > 0 {
      var request := Request(Some(limit), cursor);
      var step := body(cursor, acc, server(request));
      LoopUnfold(server, body, limit, cursor, acc, fuel);
      if step.Continue? {
        LoopOtherErr(server, body, limit, step.cursor, step.acc, fuel - 1);
        var rest := Loop(server, body, limit, step.cursor, step.acc, fuel - 1);
        if |rest.requests| >= 1 {
          assert ([request] + rest.requests)[|rest.requests|] == rest.requests[|rest.requests| - 1];
        }
      }
    }
  }

  /** Between consecutive requests of the loop, the page answering the
      first was readable and the second carries the cursor of that page's
      last "next" link; a loop that succeeds ends on a readable page
      without a "next" link. */
  lemma {:induction false} LoopCursorChain<T(!new)>(server: Request -> Reply<T>, body: LoopBody<T>, kind: Kind,
                                              cursorOf: string -> string, limit: int, cursor: Option<string>,
                                              acc: seq<T>, fuel: nat)
    requires FollowsLinks(body, kind, cursorOf)
    ensures var r := Loop(server, body, limit, cursor, acc, fuel);
      forall i :: 0 <= i < |r.requests| - 1 ==>
        && Readable(kind, server(r.requests[i]))
        && NextCursor(server(r.requests[i]), cursorOf).Some?
        && r.requests[i + 1].startingAfter == NextCursor(server(r.requests[i]), cursorOf)
    ensures var r := Loop(server, body, limit, cursor, acc, fuel);
      r.outcome.Ok? ==>
        && |r.requests| >= 1
        && Readable(kind, server(r.requests[|r.requests| - 1]))
        && NextCursor(server(r.requests[|r.requests| - 1]), cursorOf).None?
    decreases fuel
  {
    if fuel > 0 {
      var request := Request(Some(limit), cursor);
      var step := body(cursor, acc, server(request));
      LoopUnfold(server, body, limit, cursor, acc, fuel);
      if step.Continue? {
        LoopCursorChain(server, body, kind, cursorOf, limit, step.cursor, step.acc, fuel - 1);
        var rest := Loop(server, body, limit, step.cursor, step.acc, fuel - 1);
        var all := [request] + rest.requests;
        forall i | 0 <= i < |all| - 1
          ensures Readable(kind, server(all[i]))
          ensures NextCursor(server(all[i]), cursorOf).Some?
          ensures all[i + 1].startingAfter == NextCursor(server(all[i]), cursorOf)
        {
          if i > 0 {
            assert all[i] == rest.requests[i - 1];
          }
          assert all[i + 1] == rest.requests[i];
        }
        if rest.outcome.Ok? {
          assert all[|all| - 1] == rest.requests[|rest.requests| - 1];
        }
      }
    }
  }

  /** A server that answers a chain of pages: each page is a readable 2xx
      page, every page but the last has a "next" link, the last has none, and
      each page is the answer to the cursor of the previous page's last
      "next" link. */
  ghost predicate Serves<T>(server: Request -> Reply<T>, cursorOf: string -> string, kind: Kind, limit: int,
                            cursor: Option<string>, pages: seq<Envelope<T>>)
    decreases |pages|
  {
    && |pages| > 0
    && var reply := server(Request(Some(limit), cursor));
    && Readable(kind, reply)
    && reply.body.envelope == pages[0]
    && (|pages| == 1 ==> NextCursor(reply, cursorOf).None?)
    && (|pages| > 1 ==>
          && NextCursor(reply, cursorOf).Some?
          && Serves(server, cursorOf, kind, limit, NextCursor(reply, cursorOf), pages[1..]))
  }

  /** The records of a list of pages, concatenated in page order. */
  function PagesItems<T>(pages: seq<Envelope<T>>): seq<T> {
    if pages == [] then [] else EnvelopeItems(pages[0]) + PagesItems(pages[1..])
  }

  /** `body` walks the chain of pages `pages` from the request with
      `cursor`, `acc` having been collected before: on each page it appends
      the page's records, and it stops with success exactly on the last. */
  ghost predicate Walks<T>(server: Request -> Reply<T>, body: LoopBody<T>, limit: int,
                           cursor: Option<string>, pages: seq<Envelope<T>>, acc: seq<T>)
    decreases |pages|
  {
    && |pages| > 0
    && var step := body(cursor, acc, server(Request(Some(limit), cursor)));
    && (|pages| == 1 ==> step == Stop(Ok(acc + EnvelopeItems(pages[0]))))
    && (|pages| > 1 ==>
          && step.Continue?
          && step.acc == acc + EnvelopeItems(pages[0])
          && Walks(server, body, limit, step.cursor, pages[1..], step.acc))
  }

  /** Given enough fuel, a loop whose body walks a chain of pages yields the
      in-order concatenation of every page's records, one request per page. */
  lemma {:induction false} LoopWalks<T>(server: Request -> Reply<T>, body: LoopBody<T>, limit: int,
                                        cursor: Option<string>, pages: seq<Envelope<T>>, acc: seq<T>, fuel: nat)
    requires Walks(server, body, limit, cursor, pages, acc)
    requires fuel >= |pages|
    ensures Loop(server, body, limit, cursor, acc, fuel).outcome == Ok(acc + PagesItems(pages))
    ensures |Loop(server, body, limit, cursor, acc, fuel).requests| == |pages|
    decreases |pages|
  {
    LoopUnfold(server, body, limit, cursor, acc, fuel);
    var step := body(cursor, acc, server(Request(Some(limit), cursor)));
    var first := EnvelopeItems(pages[0]);
    if |pages| > 1 {
      LoopWalks(server, body, limit, step.cursor, pages[1..], step.acc, fuel - 1);
      Seqs.AppendAssoc(acc, first, PagesItems(pages[1..]));
    } else {
      assert pages[1..] == [];
      Seqs.AppendEmpty(first);
    }
  }

  /** The body of the paginated fetches walks every chain of pages a server
      answers. */
  lemma {:induction false} ServesWalks<T>(server: Request -> Reply<T>, cursorOf: string -> string, kind: Kind,
                                          limit: int, cursor: Option<string>, pages: seq<Envelope<T>>, acc: seq<T>)
    requires Serves(server, cursorOf, kind, limit, cursor, pages)
    ensures Walks(server, PageBody(kind, cursorOf), limit, cursor, pages, acc)
    decreases |pages|
  {
    var reply := server(Request(Some(limit), cursor));
    PageStepReadable(kind, cursorOf, cursor, acc, reply);
    assert ReplyItems(reply) == EnvelopeItems(pages[0]);
    if |pages| > 1 {
      ServesWalks(server, cursorOf, kind, limit, NextCursor(reply, cursorOf), pages[1..], acc + EnvelopeItems(pages[0]));
    }
  }

  /** Once a cursor is set, a body that panics with `cause` only without
      one never makes the loop panic that way. */
  lemma {:induction false} LoopKeepsCursor<T(!new)>(server: Request -> Reply<T>, body: LoopBody<T>, cause: PanicCause,
                                                    limit: int, cursor: Option<string>, acc: seq<T>, fuel: nat)
    requires ContinuesWithCursor(body)
    requires PanicsOnlyWithoutCursor(body, cause)
    requires cursor.Some?
    ensures Loop(server, body, limit, cursor, acc, fuel).outcome != Panic(cause)
    decreases fuel
  {
    if fuel > 0 {
      var step := body(cursor, acc, server(Request(Some(limit), cursor)));
      LoopUnfold(server, body, limit, cursor, acc, fuel);
      if step.Continue? {
        LoopKeepsCursor(server, body, cause, limit, step.cursor, step.acc, fuel - 1);
      }
    }
  }

  /** A body that never panics with `cause` never makes the loop panic
      that way. */
  lemma {:induction false} LoopNeverPanics<T(!new)>(server: Request -> Reply<T>, body: LoopBody<T>, cause: PanicCause,
                                              limit: int, cursor: Option<string>, acc: seq<T>, fuel: nat)
    requires NeverPanics(body, cause)
    ensures Loop(server, body, limit, cursor, acc, fuel).outcome != Panic(cause)
    decreases fuel
  {
    if fuel > 0 {
      var step := body(cursor, acc, server(Request(Some(limit), cursor)));
      LoopUnfold(server, body, limit, cursor, acc, fuel);
      if step.Continue? {
        LoopNeverPanics(server, body, cause, limit, step.cursor, step.acc, fuel - 1);
      }
    }
  }

  // The same facts about GetCleverSchools and its five sister functions.

  /** Every request of a fetch carries the limit, and every request after
      the first carries a cursor. */
  lemma FetchRequests<T(!new)>(server: Request -> Reply<T>, cursorOf: string -> string, kind: Kind, limit: int, fuel: nat)
    ensures var r := Fetch(server, cursorOf, kind, limit, fuel);
      && (fuel > 0 ==> |r.requests| >= 1 && r.requests[0] == Request(Some(limit), None))
      && (forall i :: 0 <= i < |r.requests| ==> r.requests[i].limit == Some(limit))
      && (forall i :: 1 <= i < |r.requests| ==> r.requests[i].startingAfter.Some?)
  {
    PageBodyAppends<T>(kind, cursorOf);
    LoopRequests(server, PageBody(kind, cursorOf), limit, None, [], fuel);
    assert Fetch(server, cursorOf, kind, limit, fuel) == Loop(server, PageBody(kind, cursorOf), limit, None, [], fuel);
  }

  /** A fetch that succeeds returns the records of every page it requested,
      in request order. */
  lemma FetchOkItems<T(!new)>(server: Request -> Reply<T>, cursorOf: string -> string, kind: Kind, limit: int, fuel: nat)
    ensures var r := Fetch(server, cursorOf, kind, limit, fuel);
      r.outcome.Ok? ==> r.outcome.items == TraceItems(server, r.requests)
  {
    PageBodyAppends<T>(kind, cursorOf);
    LoopOkItems(server, PageBody(kind, cursorOf), limit, None, [], fuel);
  }

  /** A fetch that fails on a non-2xx status names the kind's path, that
      status and the cursor of the failing request; and a non-2xx reply to
      a later request ends the fetch with that error, carrying the records
      of the pages before it. */
  lemma FetchStatusErr<T(!new)>(server: Request -> Reply<T>, cursorOf: string -> string, kind: Kind, limit: int, fuel: nat)
    ensures var r := Fetch(server, cursorOf, kind, limit, fuel);
      r.outcome.Err? && r.outcome.error.Status? ==>
        && |r.requests| >= 1
        && var last := r.requests[|r.requests| - 1];
        && server(last).Http? && !IsHTTPSuccess(server(last).status)
        && last.startingAfter.Some?
        && r.outcome.error == Status(Path(kind), server(last).status, last.startingAfter)
    ensures var r := Fetch(server, cursorOf, kind, limit, fuel);
      |r.requests| >= 2 ==>
        var last := r.requests[|r.requests| - 1];
        server(last).Http? && !IsHTTPSuccess(server(last).status) ==>
          r.outcome == Err(Status(Path(kind), server(last).status, last.startingAfter),
                           Some(TraceItems(server, r.requests[..|r.requests| - 1])))
  {
    var body := PageBody<T>(kind, cursorOf);
    PageBodyErrors<T>(kind, cursorOf);
    LoopStatusErr(server, body, Path(kind), limit, None, [], fuel);
    assert Fetch(server, cursorOf, kind, limit, fuel) == Loop(server, body, limit, None, [], fuel);
    FetchRequests(server, cursorOf, kind, limit, fuel);
    FetchStatusPartial(server, cursorOf, kind, limit, fuel);
  }

  /** A fetch that fails on a non-2xx status keeps exactly the records of
      the pages before the failing one. */
  lemma FetchStatusPartial<T(!new)>(server: Request -> Reply<T>, cursorOf: string -> string, kind: Kind, limit: int, fuel: nat)
    ensures var r := Fetch(server, cursorOf, kind, limit, fuel);
      r.outcome.Err? && r.outcome.error.Status? ==>
        |r.requests| >= 1 && r.outcome.partial == Some(TraceItems(server, r.requests[..|r.requests| - 1]))
  {
    var body := PageBody<T>(kind, cursorOf);
    var r := Loop(server, body, limit, None, [], fuel);
    assert Fetch(server, cursorOf, kind, limit, fuel) == r;
    assert r.outcome.Err? && r.outcome.error.Status? ==>
      |r.requests| >= 1 && r.outcome.partial == Some(TraceItems(server, r.requests[..|r.requests| - 1])) by {
      PageBodyAppends<T>(kind, cursorOf);
      PageBodyErrors<T>(kind, cursorOf);
      LoopStatusPartial(server, body, Path(kind), limit, None, [], fuel);
      if |r.requests| >= 1 {
        var before := TraceItems(server, r.requests[..|r.requests| - 1]);
        Seqs.AppendEmpty(before);
      }
    }
  }

  /** A fetch that fails on the transport or on decoding returns that
      error of the reply to its last request, with no records; a transport
      failure or an undecodable 2xx body in reply to the last request is
      exactly what the fetch returns. */
  lemma FetchOtherErr<T(!new)>(server: Request -> Reply<T>, cursorOf: string -> string, kind: Kind, limit: int, fuel: nat)
    ensures var r := Fetch(server, cursorOf, kind, limit, fuel);
      r.outcome.Err? && !r.outcome.error.Status? ==>
        && r.outcome.partial.None? && |r.requests| >= 1
        && OtherError(server(r.requests[|r.requests| - 1])) == Some(r.outcome.error)
    ensures var r := Fetch(server, cursorOf, kind, limit, fuel);
      |r.requests| >= 1 && OtherError(server(r.requests[|r.requests| - 1])).Some? ==>
        r.outcome == Err(OtherError(server(r.requests[|r.requests| - 1])).value, None)
  {
    var body := PageBody<T>(kind, cursorOf);
    PageBodyErrors<T>(kind, cursorOf);
    LoopOtherErr(server, body, limit, None, [], fuel);
    assert Fetch(server, cursorOf, kind, limit, fuel) == Loop(server, body, limit, None, [], fuel);
  }

  /** Between consecutive requests of a fetch, the page answering the first
      was readable and the second carries the cursor of that page's last
      "next" link; a fetch that succeeds ends on a readable page without a
      "next" link. */
  lemma FetchCursorChain<T(!new)>(server: Request -> Reply<T>, cursorOf: string -> string, kind: Kind, limit: int, fuel: nat)
    ensures var r := Fetch(server, cursorOf, kind, limit, fuel);
      forall i :: 0 <= i < |r.requests| - 1 ==>
        && Readable(kind, server(r.requests[i]))
        && NextCursor(server(r.requests[i]), cursorOf).Some?
        && r.requests[i + 1].startingAfter == NextCursor(server(r.requests[i]), cursorOf)
    ensures var r := Fetch(server, cursorOf, kind, limit, fuel);
      r.outcome.Ok? ==>
        && |r.requests| >= 1
        && Readable(kind, server(r.requests[|r.requests| - 1]))
        && NextCursor(server(r.requests[|r.requests| - 1]), cursorOf).None?
  {
    PageBodyFollows<T>(kind, cursorOf);
    LoopCursorChain(server, PageBody(kind, cursorOf), kind, cursorOf, limit, None, [], fuel);
  }

  /** Given enough fuel, a fetch from a server that answers a chain of pages
      returns every page's records in page order, one request per page. */
  lemma FetchServedPages<T(!new)>(server: Request -> Reply<T>, cursorOf: string -> string, kind: Kind, limit: int,
                            pages: seq<Envelope<T>>, fuel: nat)
    requires Serves(server, cursorOf, kind, limit, None, pages)
    requires fuel >= |pages|
    ensures Fetch(server, cursorOf, kind, limit, fuel).outcome == Ok(PagesItems(pages))
    ensures |Fetch(server, cursorOf, kind, limit, fuel).requests| == |pages|
  {
    ServesWalks(server, cursorOf, kind, limit, None, pages, []);
    LoopWalks(server, PageBody(kind, cursorOf), limit, None, pages, [], fuel);
    assert Fetch(server, cursorOf, kind, limit, fuel) == Loop(server, PageBody(kind, cursorOf), limit, None, [], fuel);
    assert [] + PagesItems(pages) == PagesItems(pages);
  }

  /** The nil cursor is dereferenced only when the very first page fails:
      a fetch panics that way exactly when its first reply is a non-2xx
      status. */
  lemma FetchNilCursor<T(!new)>(server: Request -> Reply<T>, cursorOf: string -> string, kind: Kind, limit: int, fuel: nat)
    ensures Fetch(server, cursorOf, kind, limit, fuel).outcome == Panic(NilCursor) <==>
      fuel > 0 && server(Request(Some(limit), None)).Http? && !IsHTTPSuccess(server(Request(Some(limit), None)).status)
  {
    if fuel > 0 {
      var body := PageBody<T>(kind, cursorOf);
      var reply := server(Request(Some(limit), None));
      var step := body(None, [], reply);
      PageBodyAppends<T>(kind, cursorOf);
      PageBodyPanics<T>(kind, cursorOf);
      PageStepErrors(kind, cursorOf, None, [], reply);
      LoopUnfold(server, body, limit, None, [], fuel);
      if step.Continue? {
        LoopKeepsCursor(server, body, NilCursor, limit, step.cursor, step.acc, fuel - 1);
      }
    }
  }

  /** The copies differ only in their nil checks: a fetch can panic on a
      missing `data` array only for district admins and teachers, and on a
      missing `links` array only for district admins. */
  lemma FetchNilArrays<T(!new)>(server: Request -> Reply<T>, cursorOf: string -> string, kind: Kind, limit: int, fuel: nat)
    ensures Fetch(server, cursorOf, kind, limit, fuel).outcome == Panic(NilData) ==> kind == DistrictAdmins || kind == Teachers
    ensures Fetch(server, cursorOf, kind, limit, fuel).outcome == Panic(NilLinks) ==> kind == DistrictAdmins
  {
    PageBodyPanics<T>(kind, cursorOf);
    if GuardsData(kind) {
      LoopNeverPanics(server, PageBody(kind, cursorOf), NilData, limit, None, [], fuel);
    }
    if GuardsLinks(kind) {
      LoopNeverPanics(server, PageBody(kind, cursorOf), NilLinks, limit, None, [], fuel);
    }
  }

  /** A first page that decodes with no `data` array: district admins and
      teachers panic, the other kinds read it as an empty page. */
  lemma FirstPageWithoutData<T(!new)>(server: Request -> Reply<T>, cursorOf: string -> string, kind: Kind, limit: int,
                                fuel: nat, links: Option<seq<Link>>)
    requires fuel > 0
    requires server(Request(Some(limit), None)).Http? && IsHTTPSuccess(server(Request(Some(limit), None)).status)
    requires server(Request(Some(limit), None)).body == Decoded(Envelope(None, links))
    ensures Fetch(server, cursorOf, kind, limit, fuel).outcome == Panic(NilData) <==> kind == DistrictAdmins || kind == Teachers
    ensures links.None? && GuardsData(kind) ==> Fetch(server, cursorOf, kind, limit, fuel).outcome == Ok([])
  {
    FetchNilArrays(server, cursorOf, kind, limit, fuel);
    LoopUnfold(server, PageBody(kind, cursorOf), limit, None, [], fuel);
  }
}

=== FILE: commands.dfy ===
/** The command-line front end of cmd/command.go: the registry of
    subcommands, the dispatch decision of `Run`, and `getFlags`.

    Logging is left out: the help listing is returned as the lines the
    source logs. Running a chosen command is the business of its own
    model (`Rosters.Diff` for "diff"; "version" only logs). */
module Commands {
  import opened Strings
  import Seqs

  /** A subcommand: the name it is invoked by and its two descriptions. */
  datatype Command = Command(usageLine: string, short: string, long: string)

  const VersionCommand := Command("version", "Shows Version", "Shows the version of this binary")

  const DiffCommand := Command(
    "diff",
    "Compare a district's roster via two different Clever apps",
    "Compare a district's roster with Clever ID for -district flag via two different Clever apps")

  /** The commands `Run` knows, in listing order. */
  const Registry: seq<Command> := [VersionCommand, DiffCommand]

  const HelpHeader := "clever - Tool for interacting with the Clever API. Available Commands:"

  /** What follows the unknown name in the error for an unknown command. */
  const InvalidSuffix := ": invalid command"

  /** The map from usage line to command built by `Run`: each command is
      stored under its usage line, a later one overwriting an earlier one. */
  function Index(commands: seq<Command>): (m: map<string, Command>)
    ensures forall k :: k in m ==> m[k] in commands && m[k].usageLine == k
    ensures forall c :: c in commands ==> c.usageLine in m
    ensures |commands| > 0 ==> m[commands[|commands| - 1].usageLine] == commands[|commands| - 1]
  {
    if commands == [] then map[]
    else
      var last := commands[|commands| - 1];
      var front := commands[..|commands| - 1];
      assert commands == front + [last];
      Index(front)[last.usageLine := last]
  }

  /** No command after position `i` has the usage line `k`. */
  predicate LastWithKey(commands: seq<Command>, i: nat, k: string) {
    forall j :: i < j < |commands| ==> commands[j].usageLine != k
  }

  /** A later command overwrites an earlier one: each key maps to the last
      command with that usage line. */
  lemma {:induction false} IndexLastWins(commands: seq<Command>)
    ensures var m := Index(commands);
      forall k :: k in m ==>
        exists i :: 0 <= i < |commands| && commands[i] == m[k] && LastWithKey(commands, i, k)
    decreases |commands|
  {
    if commands != [] {
      var n := |commands| - 1;
      var front := commands[..n];
      IndexLastWins(front);
      var m := Index(commands);
      assert m == Index(front)[commands[n].usageLine := commands[n]];
      forall k | k in m
        ensures exists i :: 0 <= i < |commands| && commands[i] == m[k] && LastWithKey(commands, i, k)
      {
        if k == commands[n].usageLine {
          assert LastWithKey(commands, n, k);
        } else {
          var i :| 0 <= i < |front| && front[i] == Index(front)[k] && LastWithKey(front, i, k);
          assert commands[i] == m[k];
          forall j | i < j < |commands| ensures commands[j].usageLine != k {
            if j < n {
              assert commands[j] == front[j];
              assert front[j].usageLine != k;
            } else {
              assert j == n;
            }
          }
          assert LastWithKey(commands, i, k);
        }
      }
    }
  }

  /** The registry's index: each command under its own name, and nothing
      else. */
  lemma RegistryIndex()
    ensures Index(Registry) == map["version" := VersionCommand, "diff" := DiffCommand]
  {
    assert Registry[..1] == [VersionCommand];
    assert [VersionCommand][..0] == [];
  }

  /** What `Run` does with its arguments (the program name already
      removed): list the commands, refuse an unknown name, or run the named
      command on the arguments after the name. */
  datatype Dispatch =
    | ListCommands(lines: seq<string>)
    | Invalid(message: string)
    | Execute(command: Command, args: seq<string>)

  /** One line of the help listing. */
  function HelpLine(c: Command): string {
    c.usageLine + " - " + c.short
  }

  function Run(args: seq<string>): (d: Dispatch)
    ensures d.ListCommands? <==> |args| == 0 || args == ["help"]
    ensures d.ListCommands? ==>
      && |d.lines| == |Registry| + 1 && d.lines[0] == HelpHeader
      && forall i :: 0 <= i < |Registry| ==> d.lines[i + 1] == HelpLine(Registry[i])
    ensures d.Invalid? <==>
      && !(|args| == 0 || args == ["help"])
      && forall i :: 0 <= i < |Registry| ==> Registry[i].usageLine != args[0]
    ensures d.Invalid? ==> d.message == args[0] + InvalidSuffix
    ensures d.Execute? ==>
      && |args| >= 1 && d.command in Registry && d.command.usageLine == args[0]
      && args == [args[0]] + d.args
  {
    if |args| == 0 || (|args| == 1 && args[0] == "help") then
      ListCommands([HelpHeader] + seq(|Registry|, i requires 0 <= i < |Registry| => HelpLine(Registry[i])))
    else
      var m := Index(Registry);
      var arg := args[0];
      RegistryIndex();
      if arg !in m then Invalid(arg + InvalidSuffix)
      else Execute(m[arg], args[1..])
  }

  /** "help" with anything after it is not the help case: no command is
      called "help", so it is refused. */
  lemma HelpWithArguments(rest: seq<string>)
    requires |rest| >= 1
    ensures Run(["help"] + rest) == Invalid("help" + InvalidSuffix)
  {
    var args := ["help"] + rest;
    assert |args| > 1 && args[0] == "help";
    assert "help"[0] != "version"[0] && "help"[0] != "diff"[0];
    assert forall i :: 0 <= i < |Registry| ==> Registry[i].usageLine != args[0];
    var d := Run(args);
    assert d.Invalid? && d.message == "help" + InvalidSuffix;
  }

  /** Each registered command is reached by its own name and receives the
      arguments that follow it. */
  lemma RunFindsCommand(i: nat, rest: seq<string>)
    requires i < |Registry|
    ensures Run([Registry[i].usageLine] + rest) == Execute(Registry[i], rest)
  {
    var args := [Registry[i].usageLine] + rest;
    assert args[0] == Registry[i].usageLine;
    assert args[1..] == rest;
    assert Registry[0].usageLine != Registry[1].usageLine;
  }

  /** The argument test of `getFlags`. */
  predicate IsFlag(arg: string) {
    HasPrefix(arg, "--") || HasPrefix(arg, "-")
  }

  /** The "--" test adds nothing: an argument is a flag exactly when it
      starts with "-". */
  lemma IsFlagDash(arg: string)
    ensures IsFlag(arg) <==> HasPrefix(arg, "-")
  {
    if HasPrefix(arg, "--") {
      assert arg[..1] == arg[..2][..1];
    }
  }

  /** The arguments after the program name that start with "-". */
  function FlagArgs(osArgs: seq<string>): seq<string>
    requires |osArgs| >= 1
  {
    Seqs.Filter(IsFlag, osArgs[1..])
  }

  /** getFlags: the arguments after the program name that start with "-",
      in their order. Go's os.Args always holds the program name first. */
  method GetFlags(osArgs: seq<string>) returns (flags: seq<string>)
    requires |osArgs| >= 1
    ensures flags == FlagArgs(osArgs)
    ensures forall i :: 0 <= i < |flags| ==> HasPrefix(flags[i], "-")
    ensures Seqs.IsSubsequence(flags, osArgs[1..])
    ensures forall a :: multiset(flags)[a] == if IsFlag(a) then multiset(osArgs[1..])[a] else 0
  {
    flags := [];
    var args := osArgs[1..];
    var n := 0;
    while n < |args|
      invariant 0 <= n <= |args|
      invariant flags == Seqs.Filter(IsFlag, args[..n])
    {
      Seqs.FilterSnoc(IsFlag, args[..n], args[n]);
      assert args[..n + 1] == args[..n] + [args[n]];
      if IsFlag(args[n]) {
        flags := flags + [args[n]];
      }
      n := n + 1;
    }
    assert args[..n] == args;
    Seqs.FilterCount(IsFlag, args);
    Seqs.FilterSubsequence(IsFlag, args);
    forall i | 0 <= i < |flags|
      ensures HasPrefix(flags[i], "-")
    {
      IsFlagDash(flags[i]);
    }
  }
}

=== FILE: entities.dfy ===
/** The records of the generated Clever API client that the roster keeps.
    Only the fields the tool reads are modelled; every field of the
    generated structs is a pointer, so each one is an `Option`. */
module Entities {
  import opened Wrappers

  datatype District = District(id: Option<string>, name: Option<string>)

  datatype School = School(id: Option<string>, name: Option<string>)

  datatype Student = Student(id: Option<string>)

  datatype Teacher = Teacher(id: Option<string>)

  datatype DistrictAdmin = DistrictAdmin(id: Option<string>)

  datatype SchoolAdmin = SchoolAdmin(id: Option<string>)

  datatype Section = Section(id: Option<string>)

  /** The `Id` pointers of a collection, in order; `id` reads one record's. */
  function Ids<T>(xs: seq<T>, id: T -> Option<string>): (ids: seq<Option<string>>)
    ensures |ids| == |xs| && forall i :: 0 <= i < |xs| ==> ids[i] == id(xs[i])
  {
    seq(|xs|, i requires 0 <= i < |xs| => id(xs[i]))
  }

  function StudentIds(xs: seq<Student>): seq<Option<string>> {
    Ids(xs, (x: Student) => x.id)
  }

  function TeacherIds(xs: seq<Teacher>): seq<Option<string>> {
    Ids(xs, (x: Teacher) => x.id)
  }

  function SchoolIds(xs: seq<School>): seq<Option<string>> {
    Ids(xs, (x: School) => x.id)
  }
}

=== FILE: missing.dfy ===
/** The comparison behind findMissingStudents, findMissingTeachers and
    findMissingSchools of cmd/roster.go, over the `Id` pointers of two
    collections: the ids of the first (growth) collection go into a set,
    then the second collection is walked and every id the set lacks is
    appended to the result.

    The source walks the wrong collection in the second loop: it ranges
    over the accelerator's indices but reads the growth records.
    `FindMissingAsWritten` is that loop, and the diff as the program runs
    it uses it: it reports nothing or panics. `FindMissing` is the
    comparison the functions are evidently meant to make; only the
    intended report and diff (`Rosters.ReportIntended`,
    `Rosters.DiffIntended`) use it. A nil `Id` and an index past the end
    are Go runtime panics. */
module Missing {
  import opened Wrappers
  import Seqs

  /** The runtime panics of the comparison. */
  datatype DiffPanic = NilId | IndexOutOfRange

  predicate AllSet(ids: seq<Option<string>>) {
    forall i :: 0 <= i < |ids| ==> ids[i].Some?
  }

  /** The ids of a collection with every `Id` set, in order. */
  function Values(ids: seq<Option<string>>): (vs: seq<string>)
    requires AllSet(ids)
    ensures |vs| == |ids| && forall i :: 0 <= i < |ids| ==> vs[i] == ids[i].value
  {
    seq(|ids|, i requires 0 <= i < |ids| => ids[i].value)
  }

  /** The first loop: the set of ids of the growth collection. */
  function IdSet(ids: seq<Option<string>>): (r: Result<set<string>, DiffPanic>)
    ensures r.Success? <==> AllSet(ids)
    ensures r.Failure? ==> r.error == NilId
    ensures r.Success? ==> forall x :: x in r.value <==> Some(x) in ids
  {
    if ids == [] then Success({})
    else
      match ids[0]
      case None => Failure(NilId)
      case Some(x) =>
        match IdSet(ids[1..])
        case Failure(e) => Failure(e)
        case Success(rest) =>
          assert ids == [ids[0]] + ids[1..];
          Success({x} + rest)
  }

  /** The second loop as it is meant to be: every id of `ids` that `seen`
      lacks, in order. */
  function Collect(seen: set<string>, ids: seq<Option<string>>): (r: Result<seq<string>, DiffPanic>)
    ensures r.Success? <==> AllSet(ids)
    ensures r.Failure? ==> r.error == NilId
  {
    if ids == [] then Success([])
    else
      match ids[0]
      case None => Failure(NilId)
      case Some(x) =>
        match Collect(seen, ids[1..])
        case Failure(e) => Failure(e)
        case Success(rest) => Success(if x in seen then rest else [x] + rest)
  }

  /** The second loop as written, from position `i` on: each index `k`
      with `i <= k < count` (`count` is the accelerator's length) reads the
      growth record at `k`. */
  function ScanAsWritten(seen: set<string>, growth: seq<Option<string>>, i: nat, count: nat)
    : Result<seq<string>, DiffPanic>
    decreases count - i
  {
    if i >= count then Success([])
    else if i >= |growth| then Failure(IndexOutOfRange)
    else
      match growth[i]
      case None => Failure(NilId)
      case Some(x) =>
        match ScanAsWritten(seen, growth, i + 1, count)
        case Failure(e) => Failure(e)
        case Success(rest) => Success(if x in seen then rest else [x] + rest)
  }

  /** findMissing* as written: the growth ids, then the accelerator's index
      range read against the growth collection. */
  function FindMissingAsWritten(growth: seq<Option<string>>, count: nat): Result<seq<string>, DiffPanic> {
    match IdSet(growth)
    case Failure(e) => Failure(e)
    case Success(seen) => ScanAsWritten(seen, growth, 0, count)
  }

  /** Every record the as-written loop reads is one whose id is already in
      the set, so the scan finds nothing, unless it runs off the end. */
  lemma {:induction false} ScanSeen(seen: set<string>, growth: seq<Option<string>>, i: nat, count: nat)
    requires AllSet(growth)
    requires forall j :: 0 <= j < |growth| ==> growth[j].value in seen
    ensures ScanAsWritten(seen, growth, i, count) ==
      if i < count && count > |growth| then Failure(IndexOutOfRange) else Success([])
    decreases count - i
  {
    if i < count && i < |growth| {
      ScanSeen(seen, growth, i + 1, count);
    }
  }

  /** The as-written comparison never reports anything: it panics on a nil
      growth id, panics when the accelerator is longer than the growth
      collection, and otherwise returns the empty list. */
  lemma FindMissingAsWrittenEmpty(growth: seq<Option<string>>, count: nat)
    ensures FindMissingAsWritten(growth, count) ==
      if !AllSet(growth) then Failure(NilId)
      else if count > |growth| then Failure(IndexOutOfRange)
      else Success([])
  {
    var ids := IdSet(growth);
    if ids.Success? {
      forall j | 0 <= j < |growth|
        ensures growth[j].value in ids.value
      {
        assert Some(growth[j].value) in growth;
      }
      ScanSeen(ids.value, growth, 0, count);
    }
  }

  /** findMissing* as intended: the ids of the accelerator collection that
      the growth collection lacks. */
  function FindMissing(growth: seq<Option<string>>, accelerator: seq<Option<string>>): Result<seq<string>, DiffPanic> {
    match IdSet(growth)
    case Failure(e) => Failure(e)
    case Success(seen) => Collect(seen, accelerator)
  }

  /** The membership test of the intended comparison. */
  function AbsentFrom(growth: seq<Option<string>>): string -> bool {
    x => Some(x) !in growth
  }

  /** The intended second loop filters the accelerator ids by `p`, when `p`
      is "not in the set". */
  lemma {:induction false} CollectFilters(seen: set<string>, ids: seq<Option<string>>, p: string -> bool)
    requires AllSet(ids)
    requires forall x :: p(x) <==> x !in seen
    ensures Collect(seen, ids) == Success(Seqs.Filter(p, Values(ids)))
  {
    if ids != [] {
      CollectFilters(seen, ids[1..], p);
      assert Values(ids[1..]) == Values(ids)[1..];
    }
  }

  /** The intended comparison succeeds exactly when every id on both sides
      is set, and then returns the accelerator ids missing from the growth
      collection, in accelerator order and with repetitions kept. */
  lemma FindMissingFilters(growth: seq<Option<string>>, accelerator: seq<Option<string>>)
    ensures FindMissing(growth, accelerator).Success? <==> AllSet(growth) && AllSet(accelerator)
    ensures FindMissing(growth, accelerator).Failure? ==> FindMissing(growth, accelerator).error == NilId
    ensures FindMissing(growth, accelerator).Success? ==>
      FindMissing(growth, accelerator).value == Seqs.Filter(AbsentFrom(growth), Values(accelerator))
  {
    var ids := IdSet(growth);
    if ids.Success? && AllSet(accelerator) {
      CollectFilters(ids.value, accelerator, AbsentFrom(growth));
    }
  }

  /** The intended result in plain terms: each reported id is an
      accelerator id absent from the growth side, and each accelerator id
      absent from the growth side is reported as often as it occurs. */
  lemma FindMissingReports(growth: seq<Option<string>>, accelerator: seq<Option<string>>)
    requires AllSet(growth) && AllSet(accelerator)
    ensures FindMissing(growth, accelerator).Success?
    ensures var missing := FindMissing(growth, accelerator).value;
      && (forall i :: 0 <= i < |missing| ==> Some(missing[i]) in accelerator && Some(missing[i]) !in growth)
      && (forall i :: 0 <= i < |accelerator| && accelerator[i] !in growth ==>
            multiset(missing)[accelerator[i].value] == multiset(Values(accelerator))[accelerator[i].value])
      && Seqs.IsSubsequence(missing, Values(accelerator))
  {
    FindMissingFilters(growth, accelerator);
    var vs := Values(accelerator);
    var missing := FindMissing(growth, accelerator).value;
    Seqs.FilterCount(AbsentFrom(growth), vs);
    Seqs.FilterSubsequence(AbsentFrom(growth), vs);
    forall i | 0 <= i < |missing|
      ensures Some(missing[i]) in accelerator && Some(missing[i]) !in growth
    {
      assert missing[i] in multiset(missing);
      assert missing[i] in multiset(vs);
      var k :| 0 <= k < |vs| && vs[k] == missing[i];
      assert accelerator[k] == Some(missing[i]);
    }
  }

  /** The discrepancy: whenever the accelerator holds an id the growth
      collection lacks (and is no longer than it), the as-written loop
      reports nothing while the intended comparison reports that id. */
  lemma AsWrittenMissesAbsentIds(growth: seq<Option<string>>, accelerator: seq<Option<string>>, i: nat)
    requires AllSet(growth) && AllSet(accelerator)
    requires |accelerator| <= |growth|
    requires i < |accelerator| && accelerator[i] !in growth
    ensures FindMissingAsWritten(growth, |accelerator|) == Success([])
    ensures FindMissing(growth, accelerator).Success? && accelerator[i].value in FindMissing(growth, accelerator).value
  {
    FindMissingAsWrittenEmpty(growth, |accelerator|);
    FindMissingReports(growth, accelerator);
    var missing := FindMissing(growth, accelerator).value;
    var vs := Values(accelerator);
    assert vs[i] == accelerator[i].value;
    assert multiset(vs)[vs[i]] > 0;
  }
}

=== FILE: query.dfy ===
/** Extraction of the `starting_after` cursor from a "next" link
    (pkg/rostering/cleverclient.go, ParseLinkStartingAfter), with the parts of
    Go's net/url it relies on: the query component of a URI (section 3.4 of
    RFC 3986), its `&`-separated `key=value` pairs, and percent-decoding
    (section 2.1 of RFC 3986, with `+` read as a space as url.QueryUnescape
    does). Whether url.Parse accepts a URI at all is left to the caller as the
    predicate `parses`. */
module Query {
  import opened Wrappers
  import opened Strings
  import Seqs

  /** The query key that carries the pagination cursor. */
  const CursorKey := "starting_after"

  predicate IsHex(c: char) {
    '0' <= c <= '9' || 'a' <= c <= 'f' || 'A' <= c <= 'F'
  }

  function HexValue(c: char): (v: nat)
    requires IsHex(c)
    ensures v < 16
  {
    if '0' <= c <= '9' then (c - '0') as nat
    else if 'a' <= c <= 'f' then (c - 'a') as nat + 10
    else (c - 'A') as nat + 10
  }

  /** The upper-case hex digit Go's escaper writes for `v`. */
  function HexDigit(v: nat): (c: char)
    requires v < 16
    ensures IsHex(c) && HexValue(c) == v
  {
    if v < 10 then ('0' as int + v) as char else ('A' as int + v - 10) as char
  }

  predicate IsByte(c: char) {
    c as int < 256
  }

  /** A Go string: every character is one byte. */
  predicate IsByteString(s: string) {
    forall i :: 0 <= i < |s| ==> IsByte(s[i])
  }

  /** url.QueryUnescape: `%XX` becomes the byte XX, `+` becomes a space, any
      other byte stands for itself; a `%` not followed by two hex digits makes
      the whole string invalid. */
  function Unescape(s: string): (r: Option<string>)
    decreases |s|
  {
    if s == [] then Some([])
    else if s[0] == '%' then
      if 3 <= |s| && IsHex(s[1]) && IsHex(s[2]) then
        match Unescape(s[3..])
        case None => None
        case Some(t) => Some([(16 * HexValue(s[1]) + HexValue(s[2])) as char] + t)
      else None
    else
      match Unescape(s[1..])
      case None => None
      case Some(t) => Some([if s[0] == '+' then ' ' else s[0]] + t)
  }

  /** The bytes url.QueryEscape leaves as they are. */
  predicate IsUnreserved(c: char) {
    'A' <= c <= 'Z' || 'a' <= c <= 'z' || '0' <= c <= '9' || c == '-' || c == '_' || c == '.' || c == '~'
  }

  function EscapeByte(c: char): (e: string)
    requires IsByte(c)
  {
    if IsUnreserved(c) then [c]
    else if c == ' ' then "+"
    else ['%', HexDigit(c as int / 16), HexDigit(c as int % 16)]
  }

  /** url.QueryEscape: the encoding a server uses to put an arbitrary cursor
      into a query value. Its output never contains a byte that delimits a
      query pair or ends the query. */
  function QueryEscape(s: string): (r: string)
    requires IsByteString(s)
    ensures '&' !in r && '=' !in r && ';' !in r && '#' !in r && '?' !in r
  {
    if s == [] then [] else EscapeByte(s[0]) + QueryEscape(s[1..])
  }

  /** What one `&`-separated piece of a query contributes to the values of
      `key`: nothing if the piece is empty, holds a `;`, or has a key or value
      that does not unescape; otherwise the unescaped value when the
      unescaped key is `key`. A piece without `=` has the empty value. */
  function PairValue(piece: string, key: string): Option<string>
  {
    if piece == [] || ';' in piece then None
    else
      var kv := Cut(piece, '=');
      match Unescape(kv.before)
      case None => None
      case Some(k) => if k == key then Unescape(kv.after) else None
  }

  /** The values url.ParseQuery collects for `key`, in order of appearance. */
  function QueryValues(query: string, key: string): seq<string>
    decreases |query|
  {
    if query == [] then []
    else
      var c := Cut(query, '&');
      var here := match PairValue(c.before, key) case Some(v) => [v] case None => [];
      here + QueryValues(c.after, key)
  }

  /** The raw query of a URI as url.Parse leaves it in `RawQuery`: the
      fragment is cut at the first `#`, then the query is what follows the
      first `?`. */
  function RawQuery(uri: string): string {
    Cut(Cut(uri, '#').before, '?').after
  }

  /** ParseLinkStartingAfter: the first `starting_after` value of the URI's
      query, or the empty string when the URI does not parse or carries no
      such value. */
  function ParseLinkStartingAfter(nextLink: string, parses: string -> bool): string {
    if !parses(nextLink) then ""
    else
      var startingAfter := QueryValues(RawQuery(nextLink), CursorKey);
      if |startingAfter| > 0 then startingAfter[0] else ""
  }

  /** The values contributed by a list of pieces, piece by piece. */
  function PieceValues(pieces: seq<string>, key: string): seq<string>
  {
    if pieces == [] then []
    else
      (match PairValue(pieces[0], key) case Some(v) => [v] case None => [])
      + PieceValues(pieces[1..], key)
  }

  /** Walking the query with strings.Cut, as url.ParseQuery does, collects
      the same values as splitting it at every `&` first. */
  lemma {:induction false} QueryValuesBySplit(query: string, key: string)
    ensures QueryValues(query, key) == PieceValues(SplitAll(query, '&'), key)
    decreases |query|
  {
    var c := Cut(query, '&');
    if query == [] {
      assert SplitAll(query, '&') == [""];
    } else if c.found {
      QueryValuesBySplit(c.after, key);
      assert SplitAll(query, '&')[1..] == SplitAll(c.after, '&');
    } else {
      assert SplitAll(query, '&') == [query];
      assert QueryValues(c.after, key) == [];
    }
  }

  /** Joining two queries with `&` joins their value lists. */
  lemma {:induction false} QueryValuesJoin(a: string, b: string, key: string)
    ensures QueryValues(a + "&" + b, key) == QueryValues(a, key) + QueryValues(b, key)
    decreases |a|
  {
    var c := Cut(a, '&');
    if a == [] {
      CutAt(a + "&" + b, '&', a, b);
      assert PairValue(a, key) == None;
      Seqs.AppendEmpty(QueryValues(b, key));
    } else if c.found {
      var here := match PairValue(c.before, key) case Some(v) => [v] case None => [];
      JoinAssoc(c.before, c.after, b, '&');
      CutAt(a + "&" + b, '&', c.before, c.after + "&" + b);
      QueryValuesJoin(c.after, b, key);
      Seqs.AppendAssoc(here, QueryValues(c.after, key), QueryValues(b, key));
    } else {
      var here := match PairValue(a, key) case Some(v) => [v] case None => [];
      CutAt(a + "&" + b, '&', a, b);
      assert QueryValues(c.after, key) == [];
      Seqs.AppendEmpty(here);
    }
  }

  /** The first piece that yields a value decides the first value. */
  lemma {:induction false} PieceValuesFirst(pieces: seq<string>, key: string, i: nat, v: string)
    requires i < |pieces| && PairValue(pieces[i], key) == Some(v)
    requires forall j :: 0 <= j < i ==> PairValue(pieces[j], key) == None
    ensures |PieceValues(pieces, key)| > 0 && PieceValues(pieces, key)[0] == v
    decreases i
  {
    if i > 0 {
      PieceValuesFirst(pieces[1..], key, i - 1, v);
    }
  }

  /** Pieces that all yield nothing give no values. */
  lemma {:induction false} PieceValuesNone(pieces: seq<string>, key: string)
    requires forall j :: 0 <= j < |pieces| ==> PairValue(pieces[j], key) == None
    ensures PieceValues(pieces, key) == []
    decreases |pieces|
  {
    if pieces != [] {
      PieceValuesNone(pieces[1..], key);
    }
  }

  /** The cursor of a next link, described piece by piece: the query is
      split at every `&`, and the value of the first piece whose key is
      `starting_after` (and which unescapes cleanly) is the cursor. */
  lemma ParseLinkStartingAfterFirst(nextLink: string, parses: string -> bool, i: nat, v: string)
    requires parses(nextLink)
    requires i < |SplitAll(RawQuery(nextLink), '&')|
    requires PairValue(SplitAll(RawQuery(nextLink), '&')[i], CursorKey) == Some(v)
    requires forall j :: 0 <= j < i ==> PairValue(SplitAll(RawQuery(nextLink), '&')[j], CursorKey) == None
    ensures ParseLinkStartingAfter(nextLink, parses) == v
  {
    var query := RawQuery(nextLink);
    QueryValuesBySplit(query, CursorKey);
    PieceValuesFirst(SplitAll(query, '&'), CursorKey, i, v);
  }

  /** The cursor is empty when the URI does not parse or when no piece of its
      query is a well-formed `starting_after` pair. */
  lemma ParseLinkStartingAfterAbsent(nextLink: string, parses: string -> bool)
    requires parses(nextLink) ==>
      forall j :: 0 <= j < |SplitAll(RawQuery(nextLink), '&')| ==>
        PairValue(SplitAll(RawQuery(nextLink), '&')[j], CursorKey) == None
    ensures ParseLinkStartingAfter(nextLink, parses) == ""
  {
    if parses(nextLink) {
      var query := RawQuery(nextLink);
      QueryValuesBySplit(query, CursorKey);
      PieceValuesNone(SplitAll(query, '&'), CursorKey);
    }
  }

  /** A string with neither `%` nor `+` unescapes to itself. */
  lemma {:induction false} UnescapePlain(s: string)
    requires forall i :: 0 <= i < |s| ==> s[i] != '%' && s[i] != '+'
    ensures Unescape(s) == Some(s)
    decreases |s|
  {
    if s != [] {
      UnescapePlain(s[1..]);
      assert s == [s[0]] + s[1..];
    }
  }

  /** Unescaping one escaped byte followed by anything. */
  lemma UnescapeEscapedByte(c: char, rest: string)
    requires IsByte(c)
    ensures Unescape(EscapeByte(c) + rest) ==
      match Unescape(rest) case None => None case Some(t) => Some([c] + t)
  {
    var e := EscapeByte(c);
    if IsUnreserved(c) || c == ' ' {
      assert (e + rest)[1..] == rest;
    } else {
      assert (e + rest)[3..] == rest;
      assert 16 * (c as int / 16) + c as int % 16 == c as int;
    }
  }

  /** Unescaping undoes escaping: a cursor placed in a query with
      url.QueryEscape is read back unchanged. */
  lemma {:induction false} UnescapeQueryEscape(s: string)
    requires IsByteString(s)
    ensures Unescape(QueryEscape(s)) == Some(s)
    decreases |s|
  {
    if s != [] {
      UnescapeEscapedByte(s[0], QueryEscape(s[1..]));
      UnescapeQueryEscape(s[1..]);
      assert s == [s[0]] + s[1..];
    }
  }

  /** The query of `base?query`, when `base` has no `?` and nothing has a `#`. */
  lemma RawQueryOf(base: string, query: string)
    requires '?' !in base && '#' !in base && '#' !in query
    ensures RawQuery(base + "?" + query) == query
  {
    var uri := base + "?" + query;
    assert '#' !in uri;
    CutAt(uri, '?', base, query);
  }

  /** The cursor key is plain text: it unescapes to itself and holds no
      delimiter. */
  lemma CursorKeyPlain()
    ensures Unescape(CursorKey) == Some(CursorKey)
    ensures '=' !in CursorKey && ';' !in CursorKey && '&' !in CursorKey && '#' !in CursorKey
  {
    PlainKey(CursorKey);
  }

  /** The key's facts, one literal per lemma: with the literal bound to a
      parameter, the solver does not unfold the string while proving the
      caller, and each step stays small. */
  lemma PlainKey(key: string)
    requires key == "starting_after"
    ensures Unescape(key) == Some(key)
    ensures '=' !in key && ';' !in key && '&' !in key && '#' !in key
  {
    PlainKeyUnescapes(key);
    PlainKeyDelimiters(key);
  }

  lemma PlainKeyUnescapes(key: string)
    requires key == "starting_after"
    ensures Unescape(key) == Some(key)
  {
    UnescapePlain(key);
  }

  lemma PlainKeyDelimiters(key: string)
    requires key == "starting_after"
    ensures '=' !in key && ';' !in key && '&' !in key && '#' !in key
  {
  }

  /** A pair `key=<escaped value>` with a plain key yields the value. */
  lemma EscapedPairValue(key: string, value: string)
    requires IsByteString(value)
    requires Unescape(key) == Some(key)
    requires '=' !in key && ';' !in key && '&' !in key && '#' !in key
    ensures var pair := key + "=" + QueryEscape(value);
      '&' !in pair && '#' !in pair && PairValue(pair, key) == Some(value)
  {
    var e := QueryEscape(value);
    var pair := key + "=" + e;
    assert ';' !in pair && '&' !in pair && '#' !in pair;
    CutAt(pair, '=', key, e);
    UnescapeQueryEscape(value);
  }

  /** The pair `starting_after=<escaped cursor>` holds no byte that ends a
      pair or the query, and yields the cursor. */
  lemma CursorPairValue(cursor: string)
    requires IsByteString(cursor)
    ensures var pair := CursorKey + "=" + QueryEscape(cursor);
      '&' !in pair && '#' !in pair && PairValue(pair, CursorKey) == Some(cursor)
  {
    CursorKeyPlain();
    EscapedPairValue(CursorKey, cursor);
  }

  /** A query made of one pair gives that pair's value alone. */
  lemma SinglePieceValues(piece: string, key: string)
    requires piece != [] && '&' !in piece
    ensures QueryValues(piece, key) ==
      match PairValue(piece, key) case Some(v) => [v] case None => []
  {
    assert Cut(piece, '&') == Split(piece, "", false);
  }

  /** A next link built the way the server builds it,
      `<base>?starting_after=<escaped cursor>`, yields back the cursor. */
  lemma ParseLinkCursorRoundTrip(base: string, cursor: string, parses: string -> bool)
    requires IsByteString(cursor)
    requires '?' !in base && '#' !in base
    requires parses(base + "?" + CursorKey + "=" + QueryEscape(cursor))
    ensures ParseLinkStartingAfter(base + "?" + CursorKey + "=" + QueryEscape(cursor), parses) == cursor
  {
    var pair := CursorKey + "=" + QueryEscape(cursor);
    assert base + "?" + CursorKey + "=" + QueryEscape(cursor) == base + "?" + pair;
    CursorPairValue(cursor);
    RawQueryOf(base, pair);
    SinglePieceValues(pair, CursorKey);
  }

  /** Values before a pair that yields `v` decide nothing when there are
      none; whatever follows the pair comes after `v`. */
  lemma {:induction false} FirstYieldingPair(before: string, pair: string, after: string, key: string, v: string)
    requires QueryValues(before, key) == []
    requires pair != [] && '&' !in pair && PairValue(pair, key) == Some(v)
    ensures |QueryValues(before + "&" + (pair + "&" + after), key)| > 0
    ensures QueryValues(before + "&" + (pair + "&" + after), key)[0] == v
  {
    QueryValuesJoin(before, pair + "&" + after, key);
    QueryValuesJoin(pair, after, key);
    SinglePieceValues(pair, key);
  }

  /** Only the first `starting_after` value counts: pairs before it that
      carry no cursor and any pairs after it are ignored. */
  lemma ParseLinkFirstWins(nextLink: string, base: string, before: string, cursor: string, after: string,
                           parses: string -> bool)
    requires IsByteString(cursor)
    requires '?' !in base && '#' !in base && '#' !in before && '#' !in after
    requires QueryValues(before, CursorKey) == []
    requires nextLink == base + "?" + (before + "&" + ((CursorKey + "=" + QueryEscape(cursor)) + "&" + after))
    requires parses(nextLink)
    ensures ParseLinkStartingAfter(nextLink, parses) == cursor
  {
    var pair := CursorKey + "=" + QueryEscape(cursor);
    var query := before + "&" + (pair + "&" + after);
    CursorPairValue(cursor);
    assert '#' !in query;
    RawQueryOf(base, query);
    FirstYieldingPair(before, pair, after, CursorKey, cursor);
  }

  /** Bytes that url.QueryEscape leaves alone come out unchanged. */
  lemma {:induction false} QueryEscapePlain(s: string)
    requires forall i :: 0 <= i < |s| ==> IsUnreserved(s[i])
    ensures IsByteString(s) && QueryEscape(s) == s
    decreases |s|
  {
    if s != [] {
      QueryEscapePlain(s[1..]);
      assert s == [s[0]] + s[1..];
    }
  }

  /** An example next link carrying a starting_after cursor. */
  lemma ParseLinkExample(nextLink: string, parses: string -> bool)
    requires nextLink == "https://api.example.com/v2.1/students?starting_after=abc123"
    requires parses(nextLink)
    ensures ParseLinkStartingAfter(nextLink, parses) == "abc123"
  {
    ExampleShape(nextLink, "https://api.example.com/v2.1/students", "abc123");
    PlainCursorLink(nextLink, "https://api.example.com/v2.1/students", "abc123", parses);
  }

  /** The example's shape, split the same way as `PlainKey`: each lemma
      below sees only the literals it needs. */
  lemma ExampleShape(nextLink: string, base: string, cursor: string)
    requires nextLink == "https://api.example.com/v2.1/students?starting_after=abc123"
    requires base == "https://api.example.com/v2.1/students" && cursor == "abc123"
    ensures IsByteString(cursor) && '?' !in base && '#' !in base
    ensures nextLink == base + "?" + CursorKey + "=" + QueryEscape(cursor)
  {
    ExampleCursor(cursor);
    ExampleConcat(nextLink, base, cursor);
  }

  lemma ExampleCursor(cursor: string)
    requires cursor == "abc123"
    ensures IsByteString(cursor) && QueryEscape(cursor) == cursor
  {
    QueryEscapePlain(cursor);
  }

  lemma ExampleConcat(nextLink: string, base: string, cursor: string)
    requires nextLink == "https://api.example.com/v2.1/students?starting_after=abc123"
    requires base == "https://api.example.com/v2.1/students" && cursor == "abc123"
    ensures '?' !in base && '#' !in base
    ensures nextLink == base + "?" + CursorKey + "=" + cursor
  {
    ExampleBase(base);
    var query := "?starting_after=abc123";
    ExampleSplit(nextLink, base, query);
    ExampleQuery(query, cursor);
  }

  lemma ExampleBase(base: string)
    requires base == "https://api.example.com/v2.1/students"
    ensures '?' !in base && '#' !in base
  {
  }

  lemma ExampleSplit(nextLink: string, base: string, query: string)
    requires nextLink == "https://api.example.com/v2.1/students?starting_after=abc123"
    requires base == "https://api.example.com/v2.1/students" && query == "?starting_after=abc123"
    ensures nextLink == base + query
  {
  }

  lemma ExampleQuery(query: string, cursor: string)
    requires query == "?starting_after=abc123" && cursor == "abc123"
    ensures query == "?" + CursorKey + "=" + cursor
  {
  }

  lemma PlainCursorLink(nextLink: string, base: string, cursor: string, parses: string -> bool)
    requires IsByteString(cursor) && '?' !in base && '#' !in base
    requires nextLink == base + "?" + CursorKey + "=" + QueryEscape(cursor)
    requires parses(nextLink)
    ensures ParseLinkStartingAfter(nextLink, parses) == cursor
  {
    ParseLinkCursorRoundTrip(base, cursor, parses);
  }
}

=== FILE: rosters.dfy ===
/** Roster assembly and the diff command of cmd/roster.go.

    A roster is the seven collections one application sees for a district.
    `GetRoster` fetches them one after another and stops at the first fetch
    that fails; `Diff` checks the `-district` flag, fetches the roster under
    the MAP Accelerator credentials and then under the MAP Growth
    credentials, and builds the report with the comparisons as written
    (`Report`), which list nothing or panic. `ReportIntended` and
    `DiffIntended` build the report of records the growth side lacks, as
    the comparisons are evidently meant to.

    The Clever API is a function from bearer token to the servers of the
    seven endpoints; flag parsing (Go's `flag` package) is a parameter over
    the arguments `getFlags` selects. Mailing the report, the optional JSON
    file and logging are left out. */
module Rosters {
  import opened Wrappers
  import opened Entities
  import opened CleverClient
  import Query
  import Token
  import Commands
  import Missing
  import Seqs

  /** The page size GetRoster asks for on every paginated endpoint. */
  const PageLimit := 1000

  /** The seven endpoints as seen with one bearer token. */
  datatype Api = Api(
    districts: Request -> Reply<District>,
    schools: Request -> Reply<School>,
    students: Request -> Reply<Student>,
    teachers: Request -> Reply<Teacher>,
    districtAdmins: Request -> Reply<DistrictAdmin>,
    schoolAdmins: Request -> Reply<SchoolAdmin>,
    sections: Request -> Reply<Section>)

  /** The Roster struct: one collection per endpoint. */
  datatype Roster = Roster(
    districts: seq<District>,
    schools: seq<School>,
    students: seq<Student>,
    teachers: seq<Teacher>,
    districtAdmins: seq<DistrictAdmin>,
    schoolAdmins: seq<SchoolAdmin>,
    sections: seq<Section>)

  datatype Endpoint = DistrictsEndpoint | PagedEndpoint(kind: Kind)

  /** The order in which GetRoster fetches. */
  const FetchOrder: seq<Endpoint> := [
    DistrictsEndpoint, PagedEndpoint(Schools), PagedEndpoint(Students), PagedEndpoint(Teachers),
    PagedEndpoint(DistrictAdmins), PagedEndpoint(SchoolAdmins), PagedEndpoint(Sections)]

  /** Why a fetch did not deliver its collection: the error it returned, a
      nil dereference that panicked, or the model's fuel running out. */
  datatype Halt = Error(error: FetchError) | Crash(cause: PanicCause) | Exhausted

  function HaltOf<T>(f: Fetched<T>): (h: Option<Halt>)
    ensures h.None? <==> f.Ok?
  {
    match f
    case Ok(_) => None
    case Err(e, _) => Some(Error(e))
    case Panic(c) => Some(Crash(c))
    case OutOfFuel => Some(Exhausted)
  }

  /** The collection of a successful fetch. */
  function ItemsOf<T>(f: Fetched<T>): seq<T> {
    if f.Ok? then f.items else []
  }

  /** The cursor extractor the client is built with. */
  function CursorOf(parses: string -> bool): string -> string {
    u => Query.ParseLinkStartingAfter(u, parses)
  }

  /** One fetch, reduced to what the assembly needs: how it halted, if it
      did, and the requests it sent. */
  datatype Probe = Probe(halt: Option<Halt>, requests: seq<Request>)

  function ProbeOf<T>(run: Run<T>): Probe {
    Probe(HaltOf(run.outcome), run.requests)
  }

  /** The runs of the seven fetches GetRoster can make. */
  datatype Fetches = Fetches(
    districts: Run<District>,
    schools: Run<School>,
    students: Run<Student>,
    teachers: Run<Teacher>,
    districtAdmins: Run<DistrictAdmin>,
    schoolAdmins: Run<SchoolAdmin>,
    sections: Run<Section>)

  /** The fetches against `api`: GetCleverDistricts, then each paginated
      endpoint with the page limit and the client's cursor extractor. */
  function FetchAll(api: Api, parses: string -> bool, fuel: nat): Fetches {
    var c := CursorOf(parses);
    Fetches(
      FetchDistricts(api.districts),
      Fetch(api.schools, c, Schools, PageLimit, fuel),
      Fetch(api.students, c, Students, PageLimit, fuel),
      Fetch(api.teachers, c, Teachers, PageLimit, fuel),
      Fetch(api.districtAdmins, c, DistrictAdmins, PageLimit, fuel),
      Fetch(api.schoolAdmins, c, SchoolAdmins, PageLimit, fuel),
      Fetch(api.sections, c, Sections, PageLimit, fuel))
  }

  function ProbeAt(f: Fetches, e: Endpoint): Probe {
    match e
    case DistrictsEndpoint => ProbeOf(f.districts)
    case PagedEndpoint(Schools) => ProbeOf(f.schools)
    case PagedEndpoint(Students) => ProbeOf(f.students)
    case PagedEndpoint(Teachers) => ProbeOf(f.teachers)
    case PagedEndpoint(DistrictAdmins) => ProbeOf(f.districtAdmins)
    case PagedEndpoint(SchoolAdmins) => ProbeOf(f.schoolAdmins)
    case PagedEndpoint(Sections) => ProbeOf(f.sections)
  }

  /** The collections the seven fetches deliver. */
  function Collections(f: Fetches): Roster {
    Roster(
      ItemsOf(f.districts.outcome), ItemsOf(f.schools.outcome), ItemsOf(f.students.outcome),
      ItemsOf(f.teachers.outcome), ItemsOf(f.districtAdmins.outcome), ItemsOf(f.schoolAdmins.outcome),
      ItemsOf(f.sections.outcome))
  }

  /** One fetch made by GetRoster: the endpoint and the requests sent. */
  datatype Call = Call(endpoint: Endpoint, requests: seq<Request>)

  /** GetRoster's result (the roster or the first halt) and its calls. */
  datatype Assembly = Assembly(result: Result<Roster, Halt>, calls: seq<Call>)

  /** The fetches of `order` one after another, stopping after the first
      one that halts; `roster` is what a run without a halt returns. */
  function Assemble(order: seq<Endpoint>, probes: seq<Probe>, roster: Roster): Assembly
    requires |order| == |probes|
  {
    if order == [] then Assembly(Success(roster), [])
    else
      var call := Call(order[0], probes[0].requests);
      if probes[0].halt.Some? then Assembly(Failure(probes[0].halt.value), [call])
      else
        var rest := Assemble(order[1..], probes[1..], roster);
        Assembly(rest.result, [call] + rest.calls)
  }

  /** The assembly makes the calls of a prefix of `order`, each with its
      own requests; every call but the last succeeded; the run fails with
      the last call's halt, or succeeds after all of them. */
  lemma {:induction false} AssembleStopsAtFirstHalt(order: seq<Endpoint>, probes: seq<Probe>, roster: Roster)
    requires |order| == |probes|
    ensures var a := Assemble(order, probes, roster);
      && |a.calls| <= |order|
      && (|order| > 0 ==> |a.calls| >= 1)
      && (forall i :: 0 <= i < |a.calls| ==> a.calls[i] == Call(order[i], probes[i].requests))
      && (forall i :: 0 <= i < |a.calls| - 1 ==> probes[i].halt.None?)
      && (a.result.Failure? ==> |a.calls| >= 1 && probes[|a.calls| - 1].halt == Some(a.result.error))
      && (a.result.Success? ==>
            && a.result.value == roster && |a.calls| == |order|
            && forall i :: 0 <= i < |order| ==> probes[i].halt.None?)
  {
    if order != [] && probes[0].halt.None? {
      AssembleStopsAtFirstHalt(order[1..], probes[1..], roster);
    }
  }

  /** The assembly of GetRoster over the runs of its fetches. */
  function AssembleRoster(f: Fetches): (a: Assembly)
    ensures 1 <= |a.calls| <= |FetchOrder|
    ensures forall i :: 0 <= i < |a.calls| ==> a.calls[i] == Call(FetchOrder[i], ProbeAt(f, FetchOrder[i]).requests)
    ensures forall i :: 0 <= i < |a.calls| - 1 ==> ProbeAt(f, FetchOrder[i]).halt.None?
    ensures a.result.Failure? ==> ProbeAt(f, FetchOrder[|a.calls| - 1]).halt == Some(a.result.error)
    ensures a.result.Success? ==>
      && |a.calls| == |FetchOrder|
      && forall i :: 0 <= i < |FetchOrder| ==> ProbeAt(f, FetchOrder[i]).halt.None?
    ensures a.result.Success? ==> a.result.value == Collections(f)
  {
    var probes := seq(|FetchOrder|, i requires 0 <= i < |FetchOrder| => ProbeAt(f, FetchOrder[i]));
    AssembleStopsAtFirstHalt(FetchOrder, probes, Collections(f));
    Assemble(FetchOrder, probes, Collections(f))
  }

  /** GetRoster: the seven fetches in `FetchOrder`, each paginated one with
      a page limit of 1000, stopping at the first that fails. */
  function GetRoster(api: Api, parses: string -> bool, fuel: nat): (a: Assembly)
    ensures var f := FetchAll(api, parses, fuel);
      && 1 <= |a.calls| <= |FetchOrder|
      && (forall i :: 0 <= i < |a.calls| ==> a.calls[i] == Call(FetchOrder[i], ProbeAt(f, FetchOrder[i]).requests))
      && (forall i :: 0 <= i < |a.calls| - 1 ==> ProbeAt(f, FetchOrder[i]).halt.None?)
      && (a.result.Failure? ==> ProbeAt(f, FetchOrder[|a.calls| - 1]).halt == Some(a.result.error))
      && (a.result.Success? ==> |a.calls| == |FetchOrder|)
  {
    AssembleRoster(FetchAll(api, parses, fuel))
  }

  /** Each field of an assembled roster is exactly what its fetch
      delivered, and every fetch delivered. */
  lemma AssembledFields(f: Fetches)
    ensures var a := AssembleRoster(f);
      a.result.Success? ==>
        var r := a.result.value;
        && f.districts.outcome == Ok(r.districts)
        && f.schools.outcome == Ok(r.schools)
        && f.students.outcome == Ok(r.students)
        && f.teachers.outcome == Ok(r.teachers)
        && f.districtAdmins.outcome == Ok(r.districtAdmins)
        && f.schoolAdmins.outcome == Ok(r.schoolAdmins)
        && f.sections.outcome == Ok(r.sections)
  {
    var a := AssembleRoster(f);
    if a.result.Success? {
      assert ProbeAt(f, FetchOrder[0]).halt.None?;
      assert ProbeAt(f, FetchOrder[1]).halt.None?;
      assert ProbeAt(f, FetchOrder[2]).halt.None?;
      assert ProbeAt(f, FetchOrder[3]).halt.None?;
      assert ProbeAt(f, FetchOrder[4]).halt.None?;
      assert ProbeAt(f, FetchOrder[5]).halt.None?;
      assert ProbeAt(f, FetchOrder[6]).halt.None?;
    }
  }

  /** A roster that is returned holds, in each field, exactly what the
      fetch for that field delivered. */
  lemma GetRosterFields(api: Api, parses: string -> bool, fuel: nat)
    ensures var a := GetRoster(api, parses, fuel);
      var c := CursorOf(parses);
      a.result.Success? ==>
        var r := a.result.value;
        && FetchDistricts(api.districts).outcome == Ok(r.districts)
        && Fetch(api.schools, c, Schools, PageLimit, fuel).outcome == Ok(r.schools)
        && Fetch(api.students, c, Students, PageLimit, fuel).outcome == Ok(r.students)
        && Fetch(api.teachers, c, Teachers, PageLimit, fuel).outcome == Ok(r.teachers)
        && Fetch(api.districtAdmins, c, DistrictAdmins, PageLimit, fuel).outcome == Ok(r.districtAdmins)
        && Fetch(api.schoolAdmins, c, SchoolAdmins, PageLimit, fuel).outcome == Ok(r.schoolAdmins)
        && Fetch(api.sections, c, Sections, PageLimit, fuel).outcome == Ok(r.sections)
  {
    AssembledFields(FetchAll(api, parses, fuel));
  }

  /** The districts fetch sends one request without parameters, and every
      request of a paginated fetch asks for pages of 1000. */
  lemma ProbeLimits(api: Api, parses: string -> bool, fuel: nat, e: Endpoint)
    ensures e.DistrictsEndpoint? ==> ProbeAt(FetchAll(api, parses, fuel), e).requests == [Request(None, None)]
    ensures e.PagedEndpoint? ==>
      var requests := ProbeAt(FetchAll(api, parses, fuel), e).requests;
      forall j :: 0 <= j < |requests| ==> requests[j].limit == Some(PageLimit)
  {
    var c := CursorOf(parses);
    match e
    case DistrictsEndpoint =>
    case PagedEndpoint(Schools) => FetchRequests(api.schools, c, Schools, PageLimit, fuel);
    case PagedEndpoint(Students) => FetchRequests(api.students, c, Students, PageLimit, fuel);
    case PagedEndpoint(Teachers) => FetchRequests(api.teachers, c, Teachers, PageLimit, fuel);
    case PagedEndpoint(DistrictAdmins) => FetchRequests(api.districtAdmins, c, DistrictAdmins, PageLimit, fuel);
    case PagedEndpoint(SchoolAdmins) => FetchRequests(api.schoolAdmins, c, SchoolAdmins, PageLimit, fuel);
    case PagedEndpoint(Sections) => FetchRequests(api.sections, c, Sections, PageLimit, fuel);
  }

  /** Every request GetRoster sends to a paginated endpoint carries the
      limit 1000; the districts request carries no parameters. */
  lemma GetRosterLimits(api: Api, parses: string -> bool, fuel: nat)
    ensures var a := GetRoster(api, parses, fuel);
      forall i, j :: 0 <= i < |a.calls| && 0 <= j < |a.calls[i].requests| ==>
        if a.calls[i].endpoint.PagedEndpoint? then a.calls[i].requests[j].limit == Some(PageLimit) else a.calls[i].requests[j] == Request(None, None)
  {
    var a := GetRoster(api, parses, fuel);
    forall i, j | 0 <= i < |a.calls| && 0 <= j < |a.calls[i].requests|
      ensures if a.calls[i].endpoint.PagedEndpoint? then a.calls[i].requests[j].limit == Some(PageLimit) else a.calls[i].requests[j] == Request(None, None)
    {
      ProbeLimits(api, parses, fuel, FetchOrder[i]);
    }
  }

  /** The district name of the report: the `Name` of the last district
      that has one, or "" when none has. */
  function DistrictName(districts: seq<District>): string {
    if districts == [] then ""
    else
      var last := districts[|districts| - 1];
      if last.name.Some? then last.name.value
      else DistrictName(districts[..|districts| - 1])
  }

  /** With no named district the name is "". */
  lemma {:induction false} DistrictNameUnnamed(districts: seq<District>)
    requires forall i :: 0 <= i < |districts| ==> districts[i].name.None?
    ensures DistrictName(districts) == ""
  {
    if districts != [] {
      var front := districts[..|districts| - 1];
      assert forall i :: 0 <= i < |front| ==> front[i] == districts[i];
      DistrictNameUnnamed(front);
    }
  }

  /** Otherwise it is the name of the last named district. */
  lemma {:induction false} DistrictNameLastNamed(districts: seq<District>, i: nat)
    requires i < |districts| && districts[i].name.Some?
    requires forall j :: i < j < |districts| ==> districts[j].name.None?
    ensures DistrictName(districts) == districts[i].name.value
    decreases |districts|
  {
    if i < |districts| - 1 {
      var front := districts[..|districts| - 1];
      assert districts[|districts| - 1].name.None?;
      assert forall j :: 0 <= j < |front| ==> front[j] == districts[j];
      DistrictNameLastNamed(front, i);
    }
  }

  /** The loop of `Diff` that picks the district name, as the source
      writes it: every named district overwrites the name chosen so far. */
  method PickDistrictName(districts: seq<District>) returns (name: string)
    ensures name == DistrictName(districts)
  {
    name := "";
    for i := 0 to |districts|
      invariant name == DistrictName(districts[..i])
    {
      assert districts[..i + 1][..i] == districts[..i];
      if districts[i].name.Some? {
        name := districts[i].name.value;
      }
    }
    assert districts[..|districts|] == districts;
  }

  /** The mail.MissingReport the diff produces. */
  datatype MissingReport = MissingReport(
    districtName: string,
    districtCleverID: string,
    missingStudents: seq<string>,
    missingTeachers: seq<string>,
    missingSchools: seq<string>)

  /** The flags the diff command reads. */
  datatype Flags = Flags(district: string, json: bool)

  const RequiredDistrictMessage := "-district ${ID} is a required argument"

  datatype DiffError =
    | FlagsRejected(message: string)
    | MissingDistrict(message: string)
    | TokenFailed(error: Token.TokenError)
    | RosterFailed(halt: Halt)
    | CompareFailed(cause: Missing.DiffPanic)

  /** Everything outside the program that the diff depends on. `api` gives
      the endpoints as seen with a bearer token. */
  datatype World = World(
    env: Token.Env,
    urlOk: string -> bool,
    base64: string -> string,
    tokenServer: Token.TokenRequest -> Token.TokenReply,
    api: string -> Api,
    parses: string -> bool)

  /** The report, or why there is none; the token requests sent and the
      roster fetches made, in order. */
  datatype DiffRun = DiffRun(
    result: Result<MissingReport, DiffError>,
    tokenRequests: seq<Token.TokenRequest>,
    calls: seq<Call>)

  function Sent(r: Option<Token.TokenRequest>): seq<Token.TokenRequest> {
    if r.Some? then [r.value] else []
  }

  /** findMissingStudents as written: the growth ids, then the
      accelerator's index range read against the growth records. */
  function FindMissingStudentsAsWritten(growth: Roster, accelerator: Roster): Result<seq<string>, Missing.DiffPanic> {
    Missing.FindMissingAsWritten(StudentIds(growth.students), |accelerator.students|)
  }

  /** findMissingTeachers as written, the same loop over teachers. */
  function FindMissingTeachersAsWritten(growth: Roster, accelerator: Roster): Result<seq<string>, Missing.DiffPanic> {
    Missing.FindMissingAsWritten(TeacherIds(growth.teachers), |accelerator.teachers|)
  }

  /** findMissingSchools as written: the loop is bounded by the
      accelerator's teacher count while it reads growth schools. */
  function FindMissingSchoolsAsWritten(growth: Roster, accelerator: Roster): Result<seq<string>, Missing.DiffPanic> {
    Missing.FindMissingAsWritten(SchoolIds(growth.schools), |accelerator.teachers|)
  }

  /** None of the three comparisons as written can report a record: each
      panics on a nil growth id, panics when its loop bound exceeds the
      growth collection, and otherwise returns nothing. */
  lemma AsWrittenReportsNothing(growth: Roster, accelerator: Roster)
    ensures var g := StudentIds(growth.students);
      FindMissingStudentsAsWritten(growth, accelerator) ==
        if !Missing.AllSet(g) then Failure(Missing.NilId)
        else if |accelerator.students| > |growth.students| then Failure(Missing.IndexOutOfRange)
        else Success([])
    ensures var g := TeacherIds(growth.teachers);
      FindMissingTeachersAsWritten(growth, accelerator) ==
        if !Missing.AllSet(g) then Failure(Missing.NilId)
        else if |accelerator.teachers| > |growth.teachers| then Failure(Missing.IndexOutOfRange)
        else Success([])
    ensures var g := SchoolIds(growth.schools);
      FindMissingSchoolsAsWritten(growth, accelerator) ==
        if !Missing.AllSet(g) then Failure(Missing.NilId)
        else if |accelerator.teachers| > |growth.schools| then Failure(Missing.IndexOutOfRange)
        else Success([])
  {
    Missing.FindMissingAsWrittenEmpty(StudentIds(growth.students), |accelerator.students|);
    Missing.FindMissingAsWrittenEmpty(TeacherIds(growth.teachers), |accelerator.teachers|);
    Missing.FindMissingAsWrittenEmpty(SchoolIds(growth.schools), |accelerator.teachers|);
  }

  /** The report as the program builds it: the district name, then the
      three as-written comparisons in the source's order (students,
      teachers, schools), the first that panics ending the command. */
  function Report(id: string, growth: Roster, accelerator: Roster): (r: Result<MissingReport, DiffError>)
    ensures r.Failure? ==> r.error.CompareFailed?
    ensures r.Success? ==> r.value.missingStudents == [] && r.value.missingTeachers == [] && r.value.missingSchools == []
  {
    AsWrittenReportsNothing(growth, accelerator);
    var students := FindMissingStudentsAsWritten(growth, accelerator);
    var teachers := FindMissingTeachersAsWritten(growth, accelerator);
    var schools := FindMissingSchoolsAsWritten(growth, accelerator);
    if students.Failure? then Failure(CompareFailed(students.error))
    else if teachers.Failure? then Failure(CompareFailed(teachers.error))
    else if schools.Failure? then Failure(CompareFailed(schools.error))
    else Success(MissingReport(DistrictName(accelerator.districts), id, students.value, teachers.value, schools.value))
  }

  /** The report as written, case by case: it panics on a nil growth id or
      on an accelerator collection (teachers, for the schools) longer than
      the growth collection it indexes; accelerator ids are never read; and
      otherwise it names the district and lists nothing. */
  lemma ReportAsWritten(id: string, growth: Roster, accelerator: Roster)
    ensures var g := growth;
      var a := accelerator;
      Report(id, g, a) ==
        if !Missing.AllSet(StudentIds(g.students)) then Failure(CompareFailed(Missing.NilId))
        else if |a.students| > |g.students| then Failure(CompareFailed(Missing.IndexOutOfRange))
        else if !Missing.AllSet(TeacherIds(g.teachers)) then Failure(CompareFailed(Missing.NilId))
        else if |a.teachers| > |g.teachers| then Failure(CompareFailed(Missing.IndexOutOfRange))
        else if !Missing.AllSet(SchoolIds(g.schools)) then Failure(CompareFailed(Missing.NilId))
        else if |a.teachers| > |g.schools| then Failure(CompareFailed(Missing.IndexOutOfRange))
        else Success(MissingReport(DistrictName(a.districts), id, [], [], []))
  {
    AsWrittenReportsNothing(growth, accelerator);
  }

  /** The report as it is evidently meant to be: the same three lists
      built with the intended comparison. */
  function ReportIntended(id: string, growth: Roster, accelerator: Roster): (r: Result<MissingReport, DiffError>)
    ensures r.Failure? ==> r.error.CompareFailed?
  {
    var students := Missing.FindMissing(StudentIds(growth.students), StudentIds(accelerator.students));
    var teachers := Missing.FindMissing(TeacherIds(growth.teachers), TeacherIds(accelerator.teachers));
    var schools := Missing.FindMissing(SchoolIds(growth.schools), SchoolIds(accelerator.schools));
    if students.Failure? then Failure(CompareFailed(students.error))
    else if teachers.Failure? then Failure(CompareFailed(teachers.error))
    else if schools.Failure? then Failure(CompareFailed(schools.error))
    else Success(MissingReport(DistrictName(accelerator.districts), id, students.value, teachers.value, schools.value))
  }

  /** The intended report lists, for students, teachers and schools, the
      accelerator ids the growth roster lacks; it is refused only when an
      id on either side is nil. */
  lemma ReportIntendedListsMissing(id: string, growth: Roster, accelerator: Roster)
    ensures var g := growth;
      var a := accelerator;
      var sets :=
        && Missing.AllSet(StudentIds(g.students)) && Missing.AllSet(StudentIds(a.students))
        && Missing.AllSet(TeacherIds(g.teachers)) && Missing.AllSet(TeacherIds(a.teachers))
        && Missing.AllSet(SchoolIds(g.schools)) && Missing.AllSet(SchoolIds(a.schools));
      && (ReportIntended(id, g, a).Success? <==> sets)
      && (ReportIntended(id, g, a).Failure? ==> ReportIntended(id, g, a).error == CompareFailed(Missing.NilId))
      && (sets ==> ReportIntended(id, g, a).value == MissingReport(
            DistrictName(a.districts),
            id,
            Seqs.Filter(Missing.AbsentFrom(StudentIds(g.students)), Missing.Values(StudentIds(a.students))),
            Seqs.Filter(Missing.AbsentFrom(TeacherIds(g.teachers)), Missing.Values(TeacherIds(a.teachers))),
            Seqs.Filter(Missing.AbsentFrom(SchoolIds(g.schools)), Missing.Values(SchoolIds(a.schools)))))
  {
    Missing.FindMissingFilters(StudentIds(growth.students), StudentIds(accelerator.students));
    Missing.FindMissingFilters(TeacherIds(growth.teachers), TeacherIds(accelerator.teachers));
    Missing.FindMissingFilters(SchoolIds(growth.schools), SchoolIds(accelerator.schools));
  }

  /** Which report the diff builds: the program's, or the intended one. */
  datatype Comparison = AsWritten | Intended

  function CompareRosters(cmp: Comparison, id: string, growth: Roster, accelerator: Roster): Result<MissingReport, DiffError> {
    match cmp
    case AsWritten => Report(id, growth, accelerator)
    case Intended => ReportIntended(id, growth, accelerator)
  }

  /** One application's side of the diff: GetCleverClient (the token
      exchange) and then GetRoster with the token obtained. */
  datatype Side = Side(result: Result<Roster, DiffError>, tokenRequests: seq<Token.TokenRequest>, calls: seq<Call>)

  function FetchSide(id: string, isMAP: bool, world: World, fuel: nat): (s: Side)
    ensures |s.tokenRequests| <= 1
    ensures |s.tokenRequests| == 1 ==>
      s.tokenRequests[0].authorization == Token.BasicAuthorization(Token.Credentials(world.env, isMAP), world.base64)
    ensures |s.calls| > 0 || s.result.Success? ==> |s.tokenRequests| == 1
    ensures s.result.Failure? ==> s.result.error.TokenFailed? || s.result.error.RosterFailed?
  {
    var tok := Token.GetCleverToken(world.env, id, isMAP, world.urlOk, world.base64, world.tokenServer);
    if tok.token.Failure? then Side(Failure(TokenFailed(tok.token.error)), Sent(tok.sent), [])
    else
      var a := GetRoster(world.api(tok.token.value), world.parses, fuel);
      Side(if a.result.Failure? then Failure(RosterFailed(a.result.error)) else Success(a.result.value), Sent(tok.sent), a.calls)
  }

  /** A side succeeds only when its token is obtained and the roster
      fetched with that token is assembled; the side's roster is that
      roster. */
  lemma FetchSideSucceeds(id: string, isMAP: bool, world: World, fuel: nat)
    ensures FetchSide(id, isMAP, world, fuel).result.Success? ==>
      var tok := Token.GetCleverToken(world.env, id, isMAP, world.urlOk, world.base64, world.tokenServer).token;
      && tok.Success?
      && GetRoster(world.api(tok.value), world.parses, fuel).result == Success(FetchSide(id, isMAP, world, fuel).result.value)
  {
  }

  /** The two rosters the report compares. */
  datatype Both = Both(growth: Roster, accelerator: Roster)

  /** Both rosters, or why they were not obtained; the token requests sent
      and the roster fetches made, in order. */
  datatype Gathered = Gathered(
    result: Result<Both, DiffError>,
    tokenRequests: seq<Token.TokenRequest>,
    calls: seq<Call>)

  /** How the two sides combine: the accelerator side first; the growth
      side only counts when the accelerator side succeeded (the source
      does not start it otherwise). */
  function Combine(acc: Side, growth: Side): (g: Gathered)
    ensures g.tokenRequests == acc.tokenRequests + (if acc.result.Success? then growth.tokenRequests else [])
    ensures g.calls == acc.calls + (if acc.result.Success? then growth.calls else [])
    ensures g.result.Success? <==> acc.result.Success? && growth.result.Success?
    ensures g.result.Success? ==> g.result.value == Both(growth.result.value, acc.result.value)
    ensures g.result.Failure? ==> g.result.error == if acc.result.Failure? then acc.result.error else growth.result.error
  {
    if acc.result.Failure? then Gathered(Failure(acc.result.error), acc.tokenRequests, acc.calls)
    else
      var tokens := acc.tokenRequests + growth.tokenRequests;
      var calls := acc.calls + growth.calls;
      if growth.result.Failure? then Gathered(Failure(growth.result.error), tokens, calls)
      else Gathered(Success(Both(growth.result.value, acc.result.value)), tokens, calls)
  }

  /** The two sides for a district id that is set: the accelerator side,
      then the growth side. */
  function DiffDistrict(id: string, world: World, fuel: nat): (g: Gathered)
    ensures |g.tokenRequests| <= 2
    ensures |g.tokenRequests| >= 1 ==>
      g.tokenRequests[0].authorization == Token.BasicAuthorization(Token.Credentials(world.env, false), world.base64)
    ensures |g.tokenRequests| == 2 ==>
      g.tokenRequests[1].authorization == Token.BasicAuthorization(Token.Credentials(world.env, true), world.base64)
    ensures |g.calls| > 0 ==> |g.tokenRequests| >= 1
    ensures g.result.Failure? ==> g.result.error.TokenFailed? || g.result.error.RosterFailed?
  {
    Combine(FetchSide(id, false, world, fuel), FetchSide(id, true, world, fuel))
  }

  /** The report over both rosters, once they are obtained; the requests
      made to obtain them are kept. */
  function Conclude(cmp: Comparison, id: string, g: Gathered): (d: DiffRun)
    ensures d.tokenRequests == g.tokenRequests && d.calls == g.calls
    ensures d.result.Success? ==> g.result.Success?
    ensures g.result.Failure? ==> d.result == Failure(g.result.error)
    ensures d.result.Failure? && g.result.Success? ==> d.result.error.CompareFailed?
    ensures cmp.AsWritten? && d.result.Success? ==>
      d.result.value.missingStudents == [] && d.result.value.missingTeachers == [] && d.result.value.missingSchools == []
  {
    match g.result
    case Failure(e) => DiffRun(Failure(e), g.tokenRequests, g.calls)
    case Success(both) => DiffRun(CompareRosters(cmp, id, both.growth, both.accelerator), g.tokenRequests, g.calls)
  }

  /** The diff command up to the report, with the report `cmp` selects.
      `osArgs` is the whole command line; `parseFlags` stands for the flag
      package applied to what getFlags selects from it. */
  function DiffWith(cmp: Comparison, osArgs: seq<string>, parseFlags: seq<string> -> Result<Flags, string>,
                    world: World, fuel: nat): (d: DiffRun)
    requires |osArgs| >= 1
    ensures var flags := parseFlags(Commands.FlagArgs(osArgs));
      flags.Success? && flags.value.district == "" ==>
        d == DiffRun(Failure(MissingDistrict(RequiredDistrictMessage)), [], [])
    ensures d.result.Failure? && (d.result.error.FlagsRejected? || d.result.error.MissingDistrict?) ==>
      d.tokenRequests == [] && d.calls == []
    ensures |d.tokenRequests| <= 2
    ensures |d.tokenRequests| >= 1 ==>
      d.tokenRequests[0].authorization == Token.BasicAuthorization(Token.Credentials(world.env, false), world.base64)
    ensures |d.tokenRequests| == 2 ==>
      d.tokenRequests[1].authorization == Token.BasicAuthorization(Token.Credentials(world.env, true), world.base64)
    ensures |d.calls| > 0 ==> |d.tokenRequests| >= 1
  {
    match parseFlags(Commands.FlagArgs(osArgs))
    case Failure(message) => DiffRun(Failure(FlagsRejected(message)), [], [])
    case Success(flags) =>
      if flags.district == "" then DiffRun(Failure(MissingDistrict(RequiredDistrictMessage)), [], [])
      else Conclude(cmp, flags.district, DiffDistrict(flags.district, world, fuel))
  }

  /** The diff command as the program runs it: whatever the rosters, a
      report it produces lists no missing student, teacher or school. */
  function Diff(osArgs: seq<string>, parseFlags: seq<string> -> Result<Flags, string>, world: World, fuel: nat): (d: DiffRun)
    requires |osArgs| >= 1
    ensures d.result.Success? ==>
      d.result.value.missingStudents == [] && d.result.value.missingTeachers == [] && d.result.value.missingSchools == []
  {
    DiffWithListsNothing(osArgs, parseFlags, world, fuel);
    DiffWith(AsWritten, osArgs, parseFlags, world, fuel)
  }

  /** The as-written report reaches the diff unchanged. */
  lemma DiffWithListsNothing(osArgs: seq<string>, parseFlags: seq<string> -> Result<Flags, string>, world: World, fuel: nat)
    requires |osArgs| >= 1
    ensures var d := DiffWith(AsWritten, osArgs, parseFlags, world, fuel);
      d.result.Success? ==>
        d.result.value.missingStudents == [] && d.result.value.missingTeachers == [] && d.result.value.missingSchools == []
  {
    var flags := parseFlags(Commands.FlagArgs(osArgs));
    if flags.Success? && flags.value.district != "" {
      var id := flags.value.district;
      assert DiffWith(AsWritten, osArgs, parseFlags, world, fuel) == Conclude(AsWritten, id, DiffDistrict(id, world, fuel));
    }
  }

  /** The diff command with the intended report. */
  function DiffIntended(osArgs: seq<string>, parseFlags: seq<string> -> Result<Flags, string>, world: World, fuel: nat)
    : DiffRun
    requires |osArgs| >= 1
  {
    DiffWith(Intended, osArgs, parseFlags, world, fuel)
  }

  /** With the intended report, a report is produced only when the flags
      name a district, both tokens are obtained and both rosters are
      fetched; it then names that district, takes the district name from
      the accelerator roster, and lists, for students, teachers and
      schools, the accelerator ids the growth roster lacks, in accelerator
      order. */
  lemma DiffIntendedReportsMissing(osArgs: seq<string>, parseFlags: seq<string> -> Result<Flags, string>, world: World, fuel: nat)
    requires |osArgs| >= 1
    ensures var d := DiffIntended(osArgs, parseFlags, world, fuel);
      d.result.Success? ==>
        var flags := parseFlags(Commands.FlagArgs(osArgs));
        && flags.Success? && flags.value.district != ""
        && var id := flags.value.district;
        && var accTok := Token.GetCleverToken(world.env, id, false, world.urlOk, world.base64, world.tokenServer).token;
        && var growTok := Token.GetCleverToken(world.env, id, true, world.urlOk, world.base64, world.tokenServer).token;
        && accTok.Success? && growTok.Success?
        && var acc := GetRoster(world.api(accTok.value), world.parses, fuel).result;
        && var growth := GetRoster(world.api(growTok.value), world.parses, fuel).result;
        && acc.Success? && growth.Success?
        && var a := acc.value;
        && var g := growth.value;
        && Missing.AllSet(StudentIds(g.students)) && Missing.AllSet(StudentIds(a.students))
        && Missing.AllSet(TeacherIds(g.teachers)) && Missing.AllSet(TeacherIds(a.teachers))
        && Missing.AllSet(SchoolIds(g.schools)) && Missing.AllSet(SchoolIds(a.schools))
        && d.result.value == MissingReport(
             DistrictName(a.districts),
             id,
             Seqs.Filter(Missing.AbsentFrom(StudentIds(g.students)), Missing.Values(StudentIds(a.students))),
             Seqs.Filter(Missing.AbsentFrom(TeacherIds(g.teachers)), Missing.Values(TeacherIds(a.teachers))),
             Seqs.Filter(Missing.AbsentFrom(SchoolIds(g.schools)), Missing.Values(SchoolIds(a.schools))))
  {
    var d := DiffIntended(osArgs, parseFlags, world, fuel);
    if d.result.Success? {
      var flags := parseFlags(Commands.FlagArgs(osArgs));
      assert flags.Success? && flags.value.district != "";
      var id := flags.value.district;
      assert d == Conclude(Intended, id, DiffDistrict(id, world, fuel));
      var acc := FetchSide(id, false, world, fuel);
      var growth := FetchSide(id, true, world, fuel);
      assert acc.result.Success? && growth.result.Success?;
      assert d.result == ReportIntended(id, growth.result.value, acc.result.value);
      FetchSideSucceeds(id, false, world, fuel);
      FetchSideSucceeds(id, true, world, fuel);
      ReportIntendedListsMissing(id, growth.result.value, acc.result.value);
    }
  }

  /** As the program runs it, a report is produced only when the flags
      name a district, both tokens and both rosters are obtained, every
      growth id is set, and no accelerator collection a comparison walks
      is longer than the growth collection it indexes (the teachers bound
      the schools); the report then names the district and the accelerator
      roster's district name, and lists nothing. */
  lemma DiffReportsNothing(osArgs: seq<string>, parseFlags: seq<string> -> Result<Flags, string>, world: World, fuel: nat)
    requires |osArgs| >= 1
    ensures var d := Diff(osArgs, parseFlags, world, fuel);
      d.result.Success? ==>
        var flags := parseFlags(Commands.FlagArgs(osArgs));
        && flags.Success? && flags.value.district != ""
        && var id := flags.value.district;
        && var accTok := Token.GetCleverToken(world.env, id, false, world.urlOk, world.base64, world.tokenServer).token;
        && var growTok := Token.GetCleverToken(world.env, id, true, world.urlOk, world.base64, world.tokenServer).token;
        && accTok.Success? && growTok.Success?
        && var acc := GetRoster(world.api(accTok.value), world.parses, fuel).result;
        && var growth := GetRoster(world.api(growTok.value), world.parses, fuel).result;
        && acc.Success? && growth.Success?
        && var a := acc.value;
        && var g := growth.value;
        && Missing.AllSet(StudentIds(g.students)) && |a.students| <= |g.students|
        && Missing.AllSet(TeacherIds(g.teachers)) && |a.teachers| <= |g.teachers|
        && Missing.AllSet(SchoolIds(g.schools)) && |a.teachers| <= |g.schools|
        && d.result.value == MissingReport(DistrictName(a.districts), id, [], [], [])
  {
    var d := Diff(osArgs, parseFlags, world, fuel);
    if d.result.Success? {
      var flags := parseFlags(Commands.FlagArgs(osArgs));
      assert flags.Success? && flags.value.district != "";
      var id := flags.value.district;
      assert d == Conclude(AsWritten, id, DiffDistrict(id, world, fuel));
      var acc := FetchSide(id, false, world, fuel);
      var growth := FetchSide(id, true, world, fuel);
      assert acc.result.Success? && growth.result.Success?;
      assert d.result == Report(id, growth.result.value, acc.result.value);
      FetchSideSucceeds(id, false, world, fuel);
      FetchSideSucceeds(id, true, world, fuel);
      ReportAsWritten(id, growth.result.value, acc.result.value);
    }
  }

  /** One accelerator school the growth side lacks, with as many teachers
      as schools: the as-written school comparison reports nothing, the
      intended one reports the school. One more accelerator teacher than
      growth schools, and the as-written loop indexes past the end. */
  lemma SchoolsAsWrittenCounterexample(growth: Roster, accelerator: Roster)
    requires growth.schools == [School(Some("s1"), None)]
    requires accelerator.schools == [School(Some("s2"), None)]
    requires |accelerator.teachers| == 1
    ensures FindMissingSchoolsAsWritten(growth, accelerator) == Success([])
    ensures Missing.FindMissing(SchoolIds(growth.schools), SchoolIds(accelerator.schools)) == Success(["s2"])
    ensures FindMissingSchoolsAsWritten(growth, accelerator.(teachers := accelerator.teachers + accelerator.teachers))
      == Failure(Missing.IndexOutOfRange)
  {
    var g := SchoolIds(growth.schools);
    var a := SchoolIds(accelerator.schools);
    assert g == [Some("s1")] && a == [Some("s2")];
    Missing.FindMissingAsWrittenEmpty(g, 1);
    Missing.FindMissingAsWrittenEmpty(g, 2);
    Missing.FindMissingFilters(g, a);
    assert Missing.Values(a) == ["s2"];
    assert Missing.AbsentFrom(g)("s2");
    assert Seqs.Filter(Missing.AbsentFrom(g), ["s2"]) == ["s2"];
  }

  /** The same discrepancy for students: growth ["a", "b"] and accelerator
      ["c"] give no missing student as written, and ["c"] as intended. */
  lemma StudentsAsWrittenCounterexample(growth: Roster, accelerator: Roster)
    requires growth.students == [Student(Some("a")), Student(Some("b"))]
    requires accelerator.students == [Student(Some("c"))]
    ensures FindMissingStudentsAsWritten(growth, accelerator) == Success([])
    ensures Missing.FindMissing(StudentIds(growth.students), StudentIds(accelerator.students)) == Success(["c"])
  {
    var g := StudentIds(growth.students);
    var a := StudentIds(accelerator.students);
    assert g == [Some("a"), Some("b")] && a == [Some("c")];
    Missing.FindMissingAsWrittenEmpty(g, 1);
    Missing.FindMissingFilters(g, a);
    assert Missing.Values(a) == ["c"];
    assert Missing.AbsentFrom(g)("c");
    assert Seqs.Filter(Missing.AbsentFrom(g), ["c"]) == ["c"];
  }
}

=== FILE: seqs.dfy ===
/** Generic facts about sequences shared by the rest of the model. */
module Seqs {

  /** `a` is obtained from `b` by deleting zero or more elements, keeping the
      order of the rest. */
  predicate IsSubsequence<T(==)>(a: seq<T>, b: seq<T>)
    decreases |b|
  {
    if a == [] then true
    else if b == [] then false
    else (a[0] == b[0] && IsSubsequence(a[1..], b[1..])) || IsSubsequence(a, b[1..])
  }

  /** The elements of `s` satisfying `p`, in their original order, with
      repetitions kept. */
  function Filter<T(==,!new)>(p: T -> bool, s: seq<T>): (r: seq<T>)
    ensures |r| <= |s|
    ensures forall i :: 0 <= i < |r| ==> p(r[i])
  {
    if s == [] then []
    else if p(s[0]) then [s[0]] + Filter(p, s[1..]) else Filter(p, s[1..])
  }

  /** Filtering keeps every occurrence of an element satisfying `p` and
      none of the others. */
  lemma {:induction false} FilterCount<T(!new)>(p: T -> bool, s: seq<T>)
    ensures forall x :: multiset(Filter(p, s))[x] == if p(x) then multiset(s)[x] else 0
  {
    if s != [] {
      FilterCount(p, s[1..]);
      assert s == [s[0]] + s[1..];
    }
  }

  /** Filtering deletes elements without reordering the rest. */
  lemma {:induction false} FilterSubsequence<T(!new)>(p: T -> bool, s: seq<T>)
    ensures IsSubsequence(Filter(p, s), s)
  {
    if s != [] {
      FilterSubsequence(p, s[1..]);
      var r := Filter(p, s);
      if p(s[0]) {
        assert r[0] == s[0] && r[1..] == Filter(p, s[1..]);
      } else if r != [] {
        assert IsSubsequence(r, s[1..]);
      }
    }
  }

  /** Concatenation is associative. Called as a hint where a proof would
      otherwise spend its budget regrouping long concatenations. */
  lemma AppendAssoc<T>(a: seq<T>, b: seq<T>, c: seq<T>)
    ensures (a + b) + c == a + (b + c)
  {
  }

  /** The empty sequence is a unit of concatenation. */
  lemma AppendEmpty<T>(a: seq<T>)
    ensures a + [] == a
    ensures [] + a == a
  {
  }

  /** Filtering one more element at the end. */
  lemma {:induction false} FilterSnoc<T(!new)>(p: T -> bool, s: seq<T>, x: T)
    ensures Filter(p, s + [x]) == Filter(p, s) + (if p(x) then [x] else [])
    decreases |s|
  {
    if s == [] {
      assert [] + [x] == [x];
      assert [x][1..] == [];
    } else {
      var t := s + [x];
      var tail := if p(x) then [x] else [];
      assert t[0] == s[0];
      assert t[1..] == s[1..] + [x];
      FilterSnoc(p, s[1..], x);
      var head := if p(s[0]) then [s[0]] else [];
      assert Filter(p, s) == head + Filter(p, s[1..]);
      assert Filter(p, t) == head + (Filter(p, s[1..]) + tail);
      AppendAssoc(head, Filter(p, s[1..]), tail);
    }
  }
}

=== FILE: strings.dfy ===
/** The few functions of Go's `strings` package the source relies on. A Go
    string is a sequence of bytes; here every `char` stands for one byte. */
module Strings {

  /** strings.HasPrefix */
  predicate HasPrefix(s: string, prefix: string) {
    |prefix| <= |s| && s[..|prefix|] == prefix
  }

  /** strings.HasSuffix */
  predicate HasSuffix(s: string, suffix: string) {
    |suffix| <= |s| && s[|s| - |suffix|..] == suffix
  }

  /** Position of the first `c` in `s`, or `|s|` when `c` does not occur. */
  function IndexOf(s: string, c: char): (i: nat)
    ensures i <= |s|
    ensures i < |s| ==> s[i] == c
    ensures forall j :: 0 <= j < i ==> s[j] != c
  {
    if s == [] then 0
    else if s[0] == c then 0
    else 1 + IndexOf(s[1..], c)
  }

  /** The three results of strings.Cut. */
  datatype Split = Split(before: string, after: string, found: bool)

  /** strings.Cut with a one-byte separator: the text before the first `sep`,
      the text after it, and whether `sep` occurs at all. */
  function Cut(s: string, sep: char): (r: Split)
    ensures r.found <==> sep in s
    ensures sep !in r.before
  {
    var i := IndexOf(s, sep);
    if i < |s| then Split(s[..i], s[i + 1..], true) else Split(s, "", false)
  }

  /** When `sep` occurs, the two parts of the cut put back together around
      it give the string again; otherwise the whole string is the first part
      and the second is empty. */
  lemma CutParts(s: string, sep: char)
    ensures Cut(s, sep).found ==> s == Cut(s, sep).before + [sep] + Cut(s, sep).after
    ensures !Cut(s, sep).found ==> Cut(s, sep).before == s && Cut(s, sep).after == ""
  {
    var i := IndexOf(s, sep);
    if i < |s| {
      assert s == s[..i] + [sep] + s[i + 1..];
    }
  }

  /** Cutting a string that is already written as `before + [sep] + after`,
      with no `sep` in `before`, gives back exactly those two parts. */
  lemma CutAt(s: string, sep: char, before: string, after: string)
    requires s == before + [sep] + after
    requires sep !in before
    ensures Cut(s, sep) == Split(before, after, true)
  {
    var i := IndexOf(s, sep);
    assert s[|before|] == sep;
    assert s[..i] == before;
    assert s[i + 1..] == after;
  }

  /** Joining three strings with a separator does not depend on grouping. */
  lemma JoinAssoc(x: string, y: string, z: string, sep: char)
    ensures (x + [sep] + y) + [sep] + z == x + [sep] + (y + [sep] + z)
  {
  }

  /** strings.Split with a one-byte separator: the pieces between successive
      occurrences of `sep`. */
  function SplitAll(s: string, sep: char): (parts: seq<string>)
    ensures |parts| >= 1
    ensures forall i :: 0 <= i < |parts| ==> sep !in parts[i]
    decreases |s|
  {
    var c := Cut(s, sep);
    if c.found then [c.before] + SplitAll(c.after, sep) else [s]
  }
}

=== FILE: token.dfy ===
/** GetCleverToken of pkg/rostering/token.go: choosing the credential pair,
    rejecting incomplete credentials, and exchanging them for a district
    bearer token.

    The process environment is a map (an unset variable reads as ""), the
    token endpoint is a function from request to reply, base64 encoding and
    the URL check of http.NewRequest are parameters, and the JSON body has
    already been decoded. */
module Token {
  import opened Wrappers
  import opened Strings
  import CleverClient

  /** The process environment: unset variables are absent. */
  type Env = map<string, string>

  /** os.Getenv, and the expansion of `${name}` by os.ExpandEnv. */
  function Getenv(env: Env, name: string): string {
    if name in env then env[name] else ""
  }

  /** The names of the id and secret variables of one application: the
      MAP Growth pair when `isMAP`, the MAP Accelerator pair otherwise. */
  function IdVar(isMAP: bool): string {
    if isMAP then "MAP_CLEVER_ID" else "CLEVER_ID"
  }

  function SecretVar(isMAP: bool): string {
    if isMAP then "MAP_CLEVER_SECRET" else "CLEVER_SECRET"
  }

  /** The expansion of `${ID}:${SECRET}` for the chosen application. */
  function Credentials(env: Env, isMAP: bool): (creds: string)
    ensures HasPrefix(creds, Getenv(env, IdVar(isMAP)) + ":")
    ensures HasSuffix(creds, ":" + Getenv(env, SecretVar(isMAP)))
    ensures |creds| == |Getenv(env, IdVar(isMAP))| + 1 + |Getenv(env, SecretVar(isMAP))|
  {
    var id := Getenv(env, IdVar(isMAP));
    var secret := Getenv(env, SecretVar(isMAP));
    assert (id + ":" + secret)[..|id| + 1] == id + ":";
    assert (id + ":" + secret)[|id| + 1..] == secret;
    id + ":" + secret
  }

  /** Credentials are refused when the joined string starts or ends with
      the separator. */
  predicate CredentialsValid(creds: string) {
    !HasPrefix(creds, ":") && !HasSuffix(creds, ":")
  }

  /** The check accepts a joined pair exactly when the id neither is empty
      nor starts with ':' and the secret neither is empty nor ends with
      ':'; in particular an unset id or secret is always refused. */
  lemma CredentialsValidIff(id: string, secret: string)
    ensures CredentialsValid(id + ":" + secret) <==>
      && id != [] && id[0] != ':'
      && secret != [] && secret[|secret| - 1] != ':'
  {
    var creds := id + ":" + secret;
    if id == [] {
      assert creds[..1] == ":";
    }
    if secret == [] {
      assert creds[|creds| - 1..] == ":";
    }
    if id != [] {
      assert creds[..1] == [id[0]];
    }
    if secret != [] {
      assert creds[|creds| - 1..] == [secret[|secret| - 1]];
    }
  }

  /** An id without ':' is recovered from the joined pair by cutting at the
      first ':', and so is the secret. */
  lemma CredentialsSplit(env: Env, isMAP: bool)
    requires ':' !in Getenv(env, IdVar(isMAP))
    ensures Cut(Credentials(env, isMAP), ':') == Split(Getenv(env, IdVar(isMAP)), Getenv(env, SecretVar(isMAP)), true)
  {
    CutAt(Credentials(env, isMAP), ':', Getenv(env, IdVar(isMAP)), Getenv(env, SecretVar(isMAP)));
  }

  const TokenURLPrefix := "https://clever.com/oauth/tokens?owner_type=district&district="

  const MissingCredentialsMessage :=
    "all environment variables must be set including ${MAP_CLEVER_ID} ${MAP_CLEVER_SECRET} ${CLEVER_ID} and ${CLEVER_SECRET}"

  /** The token request: its URL and its Authorization header. */
  datatype TokenRequest = TokenRequest(url: string, authorization: string)

  /** The value of the Authorization header: the Basic scheme of section 2
      of RFC 7617 applied to the joined credentials. */
  function BasicAuthorization(creds: string, base64: string -> string): (h: string)
    ensures HasPrefix(h, "Basic ")
    ensures h[|"Basic "|..] == base64(creds)
  {
    assert ("Basic " + base64(creds))[..6] == "Basic ";
    "Basic " + base64(creds)
  }

  /** The header read back by the token server: stripping the scheme and
      decoding with any inverse of the encoding gives the joined
      credentials, and, when the id has no ':', cutting them at the first
      ':' gives back the id and the secret. */
  lemma BasicAuthorizationDecodes(env: Env, isMAP: bool, base64: string -> string, decode: string -> string)
    requires forall s :: decode(base64(s)) == s
    ensures var h := BasicAuthorization(Credentials(env, isMAP), base64);
      HasPrefix(h, "Basic ") && decode(h[|"Basic "|..]) == Credentials(env, isMAP)
    ensures var h := BasicAuthorization(Credentials(env, isMAP), base64);
      ':' !in Getenv(env, IdVar(isMAP)) ==>
        Cut(decode(h[|"Basic "|..]), ':') == Split(Getenv(env, IdVar(isMAP)), Getenv(env, SecretVar(isMAP)), true)
  {
    if ':' !in Getenv(env, IdVar(isMAP)) {
      CredentialsSplit(env, isMAP);
    }
  }

  /** One entry of the token response's `data` array. */
  datatype TokenData = TokenData(accessToken: string)

  /** The token response body: absent, undecodable, or decoded (with a
      `data` array that may be null). */
  datatype TokenBody = NoBody | Malformed(reason: string) | Decoded(data: Option<seq<TokenData>>)

  datatype TokenReply = TransportErr(cause: string) | Http(status: int, body: TokenBody)

  datatype TokenError =
    | BadRequest
    | MissingCredentials(message: string)
    | Transport(cause: string)
    | Status(code: int, district: string)
    | Decode(cause: string)

  /** The token or the error, and the request sent, if any. */
  datatype TokenRun = TokenRun(token: Result<string, TokenError>, sent: Option<TokenRequest>)

  /** GetCleverToken. `urlOk` says whether http.NewRequest accepts the URL. */
  function GetCleverToken(env: Env, districtID: string, isMAP: bool, urlOk: string -> bool,
                          base64: string -> string, server: TokenRequest -> TokenReply): (r: TokenRun)
    ensures var url := TokenURLPrefix + districtID;
      var creds := Credentials(env, isMAP);
      && (r.sent.Some? <==> urlOk(url) && CredentialsValid(creds))
      && (r.sent.Some? ==> r.sent.value == TokenRequest(url, BasicAuthorization(creds, base64)))
    ensures !urlOk(TokenURLPrefix + districtID) ==> r.token == Failure(BadRequest)
    ensures urlOk(TokenURLPrefix + districtID) && !CredentialsValid(Credentials(env, isMAP)) ==>
      r.token == Failure(MissingCredentials(MissingCredentialsMessage))
    ensures r.sent.Some? ==>
      var reply := server(r.sent.value);
      && (reply.TransportErr? ==> r.token == Failure(Transport(reply.cause)))
      && (reply.Http? && !CleverClient.IsHTTPSuccess(reply.status) ==> r.token == Failure(Status(reply.status, districtID)))
      && (reply.Http? && CleverClient.IsHTTPSuccess(reply.status) && reply.body.NoBody? ==> r.token == Success(""))
      && (reply.Http? && CleverClient.IsHTTPSuccess(reply.status) && reply.body.Malformed? ==>
            r.token == Failure(Decode(reply.body.reason)))
      && (reply.Http? && CleverClient.IsHTTPSuccess(reply.status) && reply.body.Decoded? ==>
            var data := reply.body.data;
            r.token == Success(if data.Some? && |data.value| > 0 then data.value[0].accessToken else ""))
    ensures r.token.Success? ==> r.sent.Some? && server(r.sent.value).Http? && CleverClient.IsHTTPSuccess(server(r.sent.value).status)
  {
    var url := TokenURLPrefix + districtID;
    if !urlOk(url) then TokenRun(Failure(BadRequest), None)
    else
      var creds := Credentials(env, isMAP);
      if !CredentialsValid(creds) then TokenRun(Failure(MissingCredentials(MissingCredentialsMessage)), None)
      else
        var request := TokenRequest(url, BasicAuthorization(creds, base64));
        var token :=
          match server(request)
          case TransportErr(e) => Failure(Transport(e))
          case Http(status, body) =>
            if !CleverClient.IsHTTPSuccess(status) then Failure(Status(status, districtID))
            else
              match body
              case NoBody => Success("")
              case Malformed(e) => Failure(Decode(e))
              case Decoded(data) =>
                if data.Some? && |data.value| != 0 then Success(data.value[0].accessToken) else Success("");
        TokenRun(token, Some(request))
  }

  /** A token is obtained only with both variables of the chosen pair set:
      an unset id or secret never reaches the token endpoint. */
  lemma TokenNeedsCredentials(env: Env, districtID: string, isMAP: bool, urlOk: string -> bool,
                              base64: string -> string, server: TokenRequest -> TokenReply)
    ensures var r := GetCleverToken(env, districtID, isMAP, urlOk, base64, server);
      r.sent.Some? ==> Getenv(env, IdVar(isMAP)) != "" && Getenv(env, SecretVar(isMAP)) != ""
  {
    CredentialsValidIff(Getenv(env, IdVar(isMAP)), Getenv(env, SecretVar(isMAP)));
  }
}

=== FILE: wrappers.dfy ===
/** Optional values and results: the model's stand-ins for Go's nil pointers
    and for the `(value, error)` return pairs of the source. */
module Wrappers {

  /** A value that may be absent; `None` plays the part of a nil pointer. */
  datatype Option<+T> = None | Some(value: T) {

    /** The carried value, or `default` when absent. */
    function GetOr(default: T): T {
      match this
      case Some(v) => v
      case None => default
    }
  }

  /** Either a successful value or an error. */
  datatype Result<+R, +E> = Success(value: R) | Failure(error: E)
}
